=== FILE: README.md ===
# music-schedule, modelled in Dafny

music-schedule is a small web application that plays music on a schedule.
The server keeps a catalog of songs in a database and plays them on the host's
audio device. It plays the "next" song whenever an enabled schedule fires and
keeps every connected browser informed of the playback state. It also offers
manual control: play, pause, stop, volume, delete, reorder and reset the play
order. The browser interface formats durations and weekday names.

This project models that core as Dafny values, functions, classes and lemmas:

- `wrappers.dfy`, `lex.dfy`, `text.dfy` are shared vocabulary:
  - `Option` and `Result`;
  - lexicographic order on integer vectors, which serves both as the
    database's multi-column `ORDER BY` and as code-point order on strings;
  - decimal rendering and parsing, zero padding, `str.split`, substring
    tests and ASCII lower-casing.
- `catalog.dfy` models the song table as a sequence of rows in storage
  order.
  - It defines the canonical "what plays next" ordering and the ordering a
    reset renumbers from.
  - It covers the rotation `play_music` applies after a play, the reset,
    the manual reorder, the three insertion paths with their `or -1`
    position rule, and deletion.
  - `SongTable` is the imperative face of the table: each method rewrites
    `rows` in place and is proved equal to a pure function.
- `playback.dfy` models the five playback globals and the audio device.
  - The device is reduced to what the code reads from it: whether it is
    busy and the elapsed milliseconds.
  - It models the broadcast and the socket handlers for toggle, stop and
    volume, plus `play_music`, `play_next_song` and `delete_song`.
  - `Player` holds the globals as fields.
  - Every handler returns the device operations it issues and the socket
    events it emits.
- `files.dfy` covers `normalize_filename`, `find_actual_file` (the disk is a
  value: directory listings plus the set of existing paths),
  `allowed_file` and `is_playlist_url`.
- `downloads.dfy` models the download progress record that
  `set_download_state` and `clear_download_state` overwrite.
- `scheduling.dfy` models:
  - schedule rows, `HH:MM` parsing and formatting, and the code-point order
    of time texts;
  - a wall clock (`Instant`);
  - the job table that `init_scheduler` creates and `schedule_music`
    rebuilds (the pure `Reconcile` and the class `JobStore`);
  - `get_next_scheduled_song`.
- `frontend_utils.dfy` models `formatDuration` with JavaScript's number
  semantics, the weekday short names and labels, and the `WEEKDAYS` list.

Behaviour of the code worth noting:

- A volume above 100 (or below 0) is clamped rather than refused.
- When `schedule_music` anchors a job's next run to today at its time, it
  does not check that today is one of the schedule's days.
- A stop request while the song is paused does nothing, because the device
  is not busy.

## Model

| member | source | states |
|---|---|---|
| Catalog.FirstInPlayOrder | app.py:565-570 | the query's first row: none exactly for an empty table, otherwise a row of the table |
| Catalog.FirstInPlayOrderIsMinimal | app.py:565-570 | no row sorts strictly before the selected one by position, then never-played first, then priority descending, then oldest play |
| Catalog.TwoSongRotation | app.py:565-626 | with two songs the one at the lower position plays first whatever the priorities; after it plays the other one comes first, at position 0 |
| Catalog.FirstOfTwo | app.py:565-570 | of two rows at different positions, the lower position is selected |
| Catalog.Order | app.py:618 | the sorted order lists every row index exactly once |
| Catalog.OrderSorted | app.py:618 | the order is strictly sorted by key with ties broken by storage order, and has no duplicates |
| Catalog.Renumber | app.py:625-626 | renumbering along a list keeps the table's length |
| Catalog.RenumberAt | app.py:625-626 | each listed row takes its place in the list as position and nothing else changes; unlisted rows are untouched |
| Catalog.RenumberAllIsDense | app.py:1412-1413 | renumbering along a list of all rows leaves positions exactly 0..n-1 |
| Catalog.Without | app.py:621 | the list keeps exactly the entries different from the removed one |
| Catalog.RotationOrderFacts | app.py:618-622 | the new order is the others by position, then the played row last; it lists every row once |
| Catalog.Rotate | app.py:613-626 | stamping the played row and renumbering keeps the table's length |
| Catalog.RotateOther | app.py:618-626 | every other row's new position is its rank among the others by old position |
| Catalog.RotateDense | app.py:625-626 | after a play the positions are exactly 0..n-1 |
| Catalog.RotatePlayedLast | app.py:614-626 | the played row gets position n-1 and the new last-played time, and sorts after every other row |
| Catalog.RotateOnlyPositions | app.py:618-626 | rows other than the played one change only their position |
| Catalog.RotateKeepsRelativeOrder | app.py:618-626 | rows not played keep their relative order by position |
| Catalog.ResetPositions | app.py:1405-1413 | the reset keeps the table's length |
| Catalog.ResetSpec | app.py:1400-1420 | after a reset positions are exactly 0..n-1 and only positions change; higher priority, then never played, then older play gets the smaller position |
| Catalog.ResetIgnoresPositions | app.py:1405-1409 | the reset's result does not depend on the positions held before |
| Catalog.IndexOf | app.py:591 | lookup by primary key finds a row with that id, or none exists |
| Catalog.SameIdentitiesValid | app.py:294-297 | unique ids and unique filenames survive any rewrite that keeps ids and filenames |
| Catalog.RotateKeepsIdentities | app.py:613-626 | a play changes no id or filename |
| Catalog.ResetKeepsIdentities | app.py:1412-1413 | a reset changes no id or filename |
| Catalog.ApplyItem | app.py:1384-1392 | one reorder entry changes no id or filename |
| Catalog.ApplyOrder | app.py:1383-1392 | a reorder request changes no id or filename |
| Catalog.ApplyOrderSpec | app.py:1383-1392 | each row's position becomes the position of the last complete entry naming its id; rows no entry names keep theirs, and nothing else changes |
| Catalog.MaxPosition | app.py:1145 | the maximum is none for an empty table, otherwise a bound on every position that some row attains |
| Catalog.NextPositionSpec | app.py:1145-1152 | a new song goes to 0 on an empty table and after the largest position otherwise, except that a largest position of 0 also gives 0, a position a row already holds |
| Catalog.FreshId | app.py:295 | a new primary key is positive and above every id in use |
| Catalog.AddSongSpec | app.py:1134-1203 | an upload with an empty client name, or one without an allowed extension, is refused for that reason first; a zero duration is refused for a download before anything else and for an allowed upload after the duplicate test; a taken filename is refused as a duplicate once the earlier checks pass; a song that passes every check is accepted, appended with a fresh id, its title, filename, duration and source, the next position, priority 0 and no play history, and the table stays valid |
| Catalog.RemoveAt | app.py:1336 | deleting a row shortens the table by one |
| Catalog.RemoveAtSpec | app.py:1336 | deleting keeps the table valid and removes exactly the rows with that id |
| Catalog.SongTable.constructor | app.py:294-303 | an empty valid table |
| Catalog.SongTable.RecordPlayed | app.py:613-626 | the rows become the rotation of the played row, and stay valid |
| Catalog.SongTable.ResetSongPositions | app.py:1400-1420 | the rows become the reset of the old rows, and stay valid |
| Catalog.SongTable.UpdateSongOrder | app.py:1374-1398 | the rows become the old rows with the request applied in order, and stay valid |
| Catalog.SongTable.Add | app.py:1134-1203 | on success the rows become the table with the song added and no error is returned; on refusal the error is returned and the rows are unchanged |
| Catalog.SongTable.Remove | app.py:1336 | the rows lose the row at that index and stay valid |
| Playback.BroadcastSpec | app.py:231-263 | `song_finished` is emitted exactly when the device is idle while a loaded song is playing, and then the song is unloaded; otherwise only the position may change; the update reports the device's busy flag |
| Playback.NoDoubleFinish | app.py:238-253 | once a broadcast found the device idle, the next broadcast never reports a finished track again |
| Playback.ToggleSpec | app.py:1229-1258 | a busy device is paused and the song stays loaded; an idle device with a loaded song is resumed; with nothing loaded nothing happens |
| Playback.PauseThenResume | app.py:1229-1258 | a pause keeps the song and its duration and records the position the device reports, if any; the next toggle resumes it at the position the device then reports, or at the paused position when it reports none; a device still idle after the resume makes the poll report the track finished |
| Playback.StopSpec | app.py:1260-1278 | on a busy device the stop unloads the song, keeps the volume and does not report a finished track; on an idle device nothing changes |
| Text.Truncate | app.py:971 | `int()` of a float (and `Math.trunc` in the interface) rounds toward zero |
| Playback.VolumeLevelSpec | app.py:966-975 | the level is a whole percentage between 0 and 1: the truncated request over 100 for requests from 0 up to below 101, 1.0 from 100 up, 0.0 below 1; the level is monotone in the request |
| Playback.VolumeExamples | app.py:1356-1367 | 150 gives 1.0, -5 gives 0.0, 60.9 gives 0.6, and a value that is not a number changes nothing |
| Playback.SetVolumeInv | app.py:966-981 | a volume request changes only the volume and keeps the playback invariant |
| Playback.PlayMusicFailure | app.py:586-638 | an unknown id, a missing file or a device failure changes no global and no row and emits nothing; an unknown id touches no device |
| Playback.PlayMusicOutcome | app.py:590-631 | a play succeeds exactly when the id names a row, its file is found on disk and the device loads and starts it |
| Playback.PlayMusicSuccess | app.py:600-631 | a success rotates the row, stops a busy device first, loads the file as found on disk, starts it and, while the device plays, names the song with its duration |
| Playback.PlayMusicInv | app.py:586-638 | a play keeps the playback invariant |
| Playback.PlayNextSongOutcome | app.py:559-584 | with a non-empty table the first song in play order is played, and the play succeeds exactly when its file is found on disk and the device works |
| Playback.PlayNextSongSpec | app.py:559-584 | nothing is played on an empty table; otherwise the first song in play order is played, succeeding exactly when its file is found on disk and the device works; a successful play rotates a row no other row sorts before |
| Playback.DeleteSongSpec | app.py:1313-1340 | the deletion succeeds exactly when a row has that id; an unknown id changes nothing; otherwise exactly that row goes, the table stays valid, its file leaves the disk, and playback is stopped and cleared exactly when it was the current song |
| Playback.Player.constructor | app.py:211-215 | the globals start with nothing loaded, not playing, position 0 and the default volume |
| Playback.Player.Poll | app.py:231-263 | the globals and emitted events are those of one broadcast |
| Playback.Player.TogglePlayPause | app.py:1229-1258 | the globals, device operations and events are those of the toggle |
| Playback.Player.HandleStop | app.py:1260-1278 | the globals, device operations and events are those of the stop |
| Playback.Player.ChangeVolume | app.py:1356-1370 | the request succeeds exactly when it is a number, and the globals and device operation are those of the volume change |
| Playback.Player.Play | app.py:586-638 | the globals, the table's rows, the operations and the events are those of the play, and the table stays valid |
| Playback.Player.PlayNext | app.py:559-584 | the globals and rows are those of playing the first song in play order |
| Playback.Player.Delete | app.py:1313-1340 | the globals, rows and disk are those of the deletion |
| Files.KeepWordsAndSpaces | app.py:643 | the filter keeps only word and whitespace characters of the title |
| Files.KeepWordsAndSpacesKeepsAll | app.py:643 | a title of only word and whitespace characters passes unchanged |
| Files.SpacesToUnderscores | app.py:645 | replacing spaces keeps the length; a character of the result is an underscore exactly where the input had a space or an underscore, and every other character is kept |
| Files.SpacesWithout | app.py:645 | spaces and underscores are the only characters touched |
| Files.CollapseUnderscores | app.py:647 | collapsing never lengthens the text and keeps its first character |
| Files.CollapseSpec | app.py:647 | no two underscores stay adjacent, nothing but underscores changes, and collapsed text is left alone |
| Files.NormalizeSpec | app.py:640-648 | a normalized name has no space, no double underscore, only underscores, word characters and non-space whitespace, and the non-underscore text of the filtered title |
| Files.CollapseAfterOther | app.py:647 | text ending in something other than an underscore collapses independently of what follows |
| Files.CollapseRun | app.py:647 | a run of one or more underscores followed by anything but an underscore becomes exactly one underscore |
| Files.CollapseJoin | app.py:647 | two pieces joined by a run of underscores collapse separately and stay joined by exactly one underscore |
| Files.SpacesAppend | app.py:645 | the space replacement works character by character, so it distributes over concatenation |
| Files.NormalizeJoin | app.py:640-648 | two words separated by any mix of spaces and underscores normalize separately and are joined by exactly one underscore |
| Files.NormalizeIdempotent | app.py:640-648 | normalizing twice gives the same name as normalizing once |
| Files.SplitPath | app.py:331-332 | a path is its directory, a slash and a slash-free base name |
| Files.Visible | app.py:335 | the glob returns exactly the directory's entries not starting with a dot |
| Files.ReplacePipe | app.py:336 | replacing the full-width pipe keeps the length |
| Files.ReplacePipeFixes | app.py:336 | an entry that matches a pipe-free name is that name |
| Files.FirstMatch | app.py:335-337 | the match is the first entry that reads as the base name, or there is none |
| Files.FindActualFileSpec | app.py:328-341 | the first visible entry of the file's directory that reads as the stored base name is returned with the directory; with none the stored name comes back |
| Files.NoPipeResolvesToItself | app.py:328-338 | a name without a pipe resolves to itself |
| Files.AllowedFileIff | app.py:325-326 | a name is accepted exactly when it has a dot and the text after its last dot, lower-cased, is mp3, wav or ogg |
| Files.AllowedEnding | app.py:325-326 | a name ending in a dot and a dot-free extension is accepted exactly when the lower-cased extension is mp3, wav or ogg |
| Files.AllowedFileExamples | app.py:325-326 | `.WAV` is accepted whatever the stem; `.mp3.txt` is refused |
| Files.ExtensionOfSuffix | app.py:326 | the extension is the text after the last dot |
| Files.IndicatorMakesPlaylist | app.py:650-658 | any URL holding one of the four indicators is a playlist |
| Files.PlaylistUrlExtended | app.py:650-658 | adding text around a playlist URL keeps it a playlist |
| Files.NoListNoPlaylist | app.py:650-658 | a URL without `list` is never a playlist |
| Downloads.UpdatedRoundTrip | app.py:112-123 | writing back a record's own fields reproduces it exactly when its active flag agrees with its status; `analyzing` and `downloading` are active, `completed` and `error` are not |
| Downloads.IdleNotWritten | app.py:112-141 | no write produces the cleared record, and the cleared record is not consistent |
| Downloads.DownloadTracker.constructor | app.py:47-55 | the record starts idle |
| Downloads.DownloadTracker.Set | app.py:112-123 | the record becomes the updated record for the arguments, active exactly while its status is not terminal |
| Downloads.DownloadTracker.Clear | app.py:130-141 | the record goes back to idle, not active |
| Scheduling.Flags | app.py:282-292 | a schedule has seven weekday flags, Monday first |
| Scheduling.SelectSpec | app.py:487-497 | a day code is listed exactly when its flag is set, and the list is empty exactly when no flag is |
| Scheduling.TwoDigitsParse | app.py:482 | a two-digit field is all digits and parses back to its number |
| Scheduling.ParseFormatHHMM | app.py:482 | splitting `HH:MM` at the colon and parsing gives the hour and minute back |
| Scheduling.FormatHHMMOrder | app.py:408-416 | for valid times, the text comparison the query makes orders `HH:MM` texts as the times of day |
| Scheduling.UnpaddedTimeSortsLate | app.py:414-416 | an unpadded stored time such as `7:30` parses but sorts after `10:00` |
| Scheduling.Weekday | app.py:409 | the weekday is one of seven |
| Scheduling.ScheduleJobNamesDistinct | app.py:500 | distinct schedules get distinct job ids |
| Scheduling.Restored | app.py:452-474 | the infrastructure jobs come back exactly when they were there before |
| Scheduling.SplitJoinWith | app.py:512 | the comma-joined day codes split back into the day list |
| Scheduling.EnabledRows | app.py:476 | the query keeps exactly the enabled schedules |
| Scheduling.AddAllKeys | app.py:479-533 | the loop adds a job for exactly the schedules with a valid time and at least one day |
| Scheduling.AddAllJob | app.py:479-527 | each such schedule's job is the cron job for its time and days |
| Scheduling.JobSetSpec | app.py:444-542 | a reload succeeds, keeps the infrastructure jobs that existed, and holds a job for exactly the enabled, valid schedules |
| Scheduling.ReconcileFailureSpec | app.py:544-557 | a failed reload reports failure, holds the broadcast job, keeps the update job only if it existed, and has no schedule jobs |
| Scheduling.AnchorSpec | app.py:502-527 | a job's next run is today at its time exactly when that is still ahead, whatever its days |
| Scheduling.AnchorOnUnflaggedDay | app.py:502-527 | a schedule not flagged for today still gets its next run today when its time is ahead |
| Scheduling.ReconcileIdempotent | app.py:444-542 | reloading again with the same schedules gives the same jobs; later, the same job ids |
| Scheduling.JobStore.constructor | app.py:110 | there is no scheduler yet |
| Scheduling.JobStore.InitScheduler | app.py:143-149 | the first call creates the broadcast and update jobs; later calls change nothing |
| Scheduling.JobStore.ScheduleMusic | app.py:444-557 | the outcome and the new jobs are those of the reload from the jobs before, with a scheduler created when there was none |
| Scheduling.JobStore.RestoreInfrastructure | app.py:452-474 | the jobs become the restored infrastructure jobs |
| Scheduling.JobStore.AddScheduleJobs | app.py:479-533 | the jobs become those of adding each schedule in turn |
| Scheduling.LaterRows | app.py:413-416 | the first query keeps exactly the enabled schedules whose time text sorts after the clock |
| Scheduling.FlaggedOn | app.py:423 | the filter keeps exactly the schedules flagged for today |
| Scheduling.Earliest | app.py:416-426 | the first by time is none exactly for no rows, otherwise one of them |
| Scheduling.EarliestIsMinimal | app.py:416-426 | no row's time text sorts before the first one's |
| Scheduling.CandidatesSpec | app.py:413-421 | candidates are enabled schedules, all later than the clock whenever any enabled schedule is |
| Scheduling.NextScheduledSpec | app.py:406-442 | nothing is shown exactly when no candidate runs today; otherwise the time and the enabled day names shown are those of an earliest candidate flagged for today |
| Scheduling.NextScheduledTitle | app.py:427-438 | the song shown is the one the play ordering selects, and none exactly for an empty catalog |
| FrontendUtils.FormatDurationZero | frontend/src/lib/utils.ts:9 | zero and NaN render as `0:00` |
| FrontendUtils.DisplayRoundTrip | frontend/src/lib/utils.ts:12 | reading the `m:ss` template on non-negative minutes and seconds back as minutes * 60 + seconds gives them back |
| FrontendUtils.WholeSeconds | frontend/src/lib/utils.ts:10-12 | whole non-negative seconds render as the minutes, a colon and the seconds modulo 60 padded to two places |
| FrontendUtils.FormatDurationShape | frontend/src/lib/utils.ts:10-12 | the rendering splits into the minutes and a two-digit field whose value is the seconds modulo 60, below 60 |
| FrontendUtils.FormatDurationRoundTrip | frontend/src/lib/utils.ts:10-12 | reading the rendering back as minutes * 60 + seconds gives the duration |
| FrontendUtils.FractionalDivision | frontend/src/lib/utils.ts:10-11 | the floored quotient and remainder by 60 depend only on the whole seconds |
| FrontendUtils.FormatDurationFloors | frontend/src/lib/utils.ts:8-13 | a fractional non-negative duration renders as its whole seconds |
| FrontendUtils.NegativeDuration | frontend/src/lib/utils.ts:10-12 | -5 renders as `-1:-5`, following JavaScript's floor and remainder |
| FrontendUtils.WeekdaysDistinct | frontend/src/lib/utils.ts:49-57 | seven distinct names, Monday first, the same list the server uses |
| FrontendUtils.WeekdayShort | frontend/src/lib/utils.ts:23-34 | any string that is not a weekday name comes back unchanged (inherited property names excepted, see below) |
| FrontendUtils.WeekdayShortSpec | frontend/src/lib/utils.ts:23-34 | each weekday's short name is its first three letters with the first capitalised |
| FrontendUtils.WeekdayLabel | frontend/src/lib/utils.ts:36-47 | any string that is not a weekday name comes back unchanged (inherited property names excepted, see below) |
| FrontendUtils.WeekdayLabelSpec | frontend/src/lib/utils.ts:36-47 | Monday to Saturday are labelled T2 to T7 and Sunday CN |
| FrontendUtils.WeekdayLabelInjective | frontend/src/lib/utils.ts:36-57 | no two weekdays share a label, and no label is a weekday name |

## Left out

- The audio device, the database session, the socket server and the HTTP layer are not modelled as such. The device's busy flag and elapsed time, whether loading and starting a file succeeds, the clock and the disk contents are parameters. The responses are reduced to the success flags and the state changes.
- The `schedule_triggered`, `music_stopped`, `volume_updated`, `error` and `stop_error` socket events are not modelled. Only `song_finished` and `playback_update` are.
- Playback.PlayMusic: when loading or starting the file fails, the operation that raised is not listed among the device operations (only the stop of a busy device is).
- Playback.Broadcast: the update emitted after a handler is modelled as a poll with a second device reading, so the device may be re-read between the handler and its broadcast.
- `seek` (app.py:1280-1311) is not part of this model. It reads a global that nothing defines.
- The playlist and single-track download pipeline, `yt-dlp`, its update job, and `get_audio_duration` are not modelled (external processes and file formats). The duration a download or upload reports is a parameter of `Catalog.AddSong`.
- The `add_schedule`, `toggle_schedule` and `delete_schedule` routes, authentication, CSRF, the admin user and the database migrations are not part of this model.
- `get_disk_usage` and `formatBytes` use floating-point logarithms and percentages and are not modelled.
- Fades, shuffling, one-time schedules and any concurrency (eventlet green threads, the scheduler's worker threads) are not modelled. Every operation runs atomically.
- Playback.VolumeLevel: the request is a real, so Python's float rounding of `percent / 100.0` is not modelled. Infinite and NaN requests are refused like text, which leaves the state unchanged as the source does, though the source reaches that result through a different exception.
- Text.ParseInt: `int()` also accepts surrounding whitespace, underscores between digits and non-ASCII digits; the model accepts only an optional sign and ASCII digits.
- Text.Lower: only ASCII letters are lower-cased. This is exact for the mp3, wav and ogg comparison.
- Files.FindActualFile: glob metacharacters in the stored name, absolute paths and repeated slashes are not modelled. The listing is not updated when a file is deleted, only the set of existing paths. A failing `os.remove` is not modelled.
- Files.NormalizeFilename: the regular-expression notion of a word character is a parameter. The whitespace set is Python's `str.isspace` on single code points.
- Scheduling.NextScheduledSong: a database failure inside `get_next_scheduled_song` is not modelled. The clock is one instant for all rows.
- Scheduling.Reconcile: `schedule_music` reads the clock once per schedule row (app.py:503); the model reads it once per reload, so rows processed either side of a minute boundary are not modelled.
- Scheduling.Reconcile: the failure path's `'broadcast_playback' not in scheduler` test (app.py:548) is modelled as testing for the job id. The scheduler object defines no membership test as far as this code shows, so in the real system the test probably raises, is caught at app.py:555, and the broadcast job survives a failed reload only if it was never removed. The exception raised when `scheduler` itself is missing is not modelled.
- Scheduling.ReconcileFailureSpec: its promise that a failed reload holds the broadcast job rests on the membership-test reading above.
- Catalog.Order: rows that tie on every sort column are returned in storage order. SQL leaves that order unspecified.
- FrontendUtils.WeekdayShort: the lookup `map[day] || day` also finds the names every JavaScript object inherits (`constructor`, `toString`, `valueOf`, `hasOwnProperty`, `__proto__` and the like) and returns that property, a function or an object, rather than the argument; the model treats them as missing keys.
- FrontendUtils.WeekdayLabel: the same inherited names are treated as missing keys, as for `WeekdayShort`.
- Catalog.AddSong: `secure_filename` and the upload's title taken from the file name are not modelled; the stored filename and the title are parameters. A request with no file part at all is not modelled.
- FrontendUtils.FormatDuration: infinities and numbers large enough for JavaScript to print in exponent form are not modelled.

=== FILE: catalog.dfy ===
/**
 * The song catalog: rows of the `song` table, the orderings the application
 * sorts them by, and the operations that rewrite positions (rotation after a
 * play, reset from play history, manual reorder) or add rows.
 *
 * The table is a sequence of rows in storage order. No operation reorders
 * that sequence; they rewrite fields of rows in place, as the ORM does. Where
 * SQL leaves the order of equal sort keys unspecified, the sorts here break
 * ties by storage order.
 */
module Catalog {
  import opened Wrappers
  import Lex
  import Files

  datatype Source = YouTube | YouTubePlaylist | Upload

  /** A row of the `song` table. Timestamps are integers; `lastPlayedAt` is `None` for a song never played. */
  datatype Song = Song(
    id: int,
    title: string,
    filename: string,
    priority: int,
    position: int,
    source: Source,
    duration: nat,
    createdAt: int,
    lastPlayedAt: Option<int>)

  // ---------------------------------------------------------------------------
  // Sort keys
  // ---------------------------------------------------------------------------

  /** 0 for a song never played, 1 otherwise: `last_played_at IS NULL DESC` puts the zeros first. */
  function PlayedRank(s: Song): int {
    if s.lastPlayedAt.None? then 0 else 1
  }

  /** `last_played_at ASC`; only ever compared between songs of equal `PlayedRank`. */
  function LastPlayed(s: Song): int {
    s.lastPlayedAt.GetOr(0)
  }

  /** The canonical "what plays next" key: position ascending, unplayed first, priority descending, oldest play first. */
  function PlayKey(s: Song): seq<int> {
    [s.position, PlayedRank(s), -s.priority, LastPlayed(s)]
  }

  /** The key positions are reset from: priority descending, unplayed first, oldest play first. */
  function HistoryKey(s: Song): seq<int> {
    [-s.priority, PlayedRank(s), LastPlayed(s)]
  }

  datatype Ordering = ByPosition | ByHistory

  function SortKey(o: Ordering, s: Song): (k: seq<int>)
    ensures |k| == if o.ByPosition? then 1 else 3
  {
    match o
    case ByPosition => [s.position]
    case ByHistory => HistoryKey(s)
  }

  /** The sort key of row `i` followed by `i` itself, so that distinct rows never tie. */
  function RankKey(rows: seq<Song>, o: Ordering, i: nat): seq<int>
    requires i < |rows|
  {
    SortKey(o, rows[i]) + [i]
  }

  lemma RankKeysDiffer(rows: seq<Song>, o: Ordering, i: nat, j: nat)
    requires i < |rows| && j < |rows| && i != j
    ensures Lex.Less(RankKey(rows, o, i), RankKey(rows, o, j)) || Lex.Less(RankKey(rows, o, j), RankKey(rows, o, i))
  {
    var ki, kj := RankKey(rows, o, i), RankKey(rows, o, j);
    assert ki[|ki| - 1] != kj[|kj| - 1];
    Lex.Total(ki, kj);
  }

  /** Rows whose sort keys differ strictly keep that order once the index is appended. */
  lemma RankKeyRespectsSortKey(rows: seq<Song>, o: Ordering, i: nat, j: nat)
    requires i < |rows| && j < |rows|
    requires Lex.Less(SortKey(o, rows[i]), SortKey(o, rows[j]))
    ensures Lex.Less(RankKey(rows, o, i), RankKey(rows, o, j))
  {
    Lex.ExtendKeepsLess(SortKey(o, rows[i]), SortKey(o, rows[j]), [i], [j]);
  }

  // ---------------------------------------------------------------------------
  // Selection of the next song
  // ---------------------------------------------------------------------------

  /** The first row under the canonical ordering, as `ORDER BY ... LIMIT 1` returns it; `None` for an empty table. */
  function FirstInPlayOrder(rows: seq<Song>): (r: Option<Song>)
    ensures r.None? <==> rows == []
    ensures r.Some? ==> r.value in rows
  {
    if rows == [] then None
    else
      match FirstInPlayOrder(rows[1..])
      case None => Some(rows[0])
      case Some(m) => if Lex.Less(PlayKey(m), PlayKey(rows[0])) then Some(m) else Some(rows[0])
  }

  /** No row sorts strictly before the selected one under the canonical ordering. */
  lemma {:induction false} FirstInPlayOrderIsMinimal(rows: seq<Song>)
    requires rows != []
    ensures forall t :: t in rows ==> Lex.LessOrEqual(PlayKey(FirstInPlayOrder(rows).value), PlayKey(t))
  {
    var tail := rows[1..];
    if tail != [] {
      FirstInPlayOrderIsMinimal(tail);
      var m := FirstInPlayOrder(tail).value;
      var r := FirstInPlayOrder(rows).value;
      forall t | t in rows
        ensures Lex.LessOrEqual(PlayKey(r), PlayKey(t))
      {
        if t == rows[0] {
          if r != rows[0] {
            Lex.Asymmetric(PlayKey(m), PlayKey(rows[0]));
          } else {
            Lex.Irreflexive(PlayKey(t));
          }
        } else {
          assert t in tail;
          if r == rows[0] {
            Lex.LessOrEqualTransitive(PlayKey(rows[0]), PlayKey(m), PlayKey(t));
          }
        }
      }
    } else {
      Lex.Irreflexive(PlayKey(rows[0]));
    }
  }

  // ---------------------------------------------------------------------------
  // Sorting row indices
  // ---------------------------------------------------------------------------

  predicate InRange(rows: seq<Song>, o: seq<nat>) {
    forall j :: 0 <= j < |o| ==> o[j] < |rows|
  }

  predicate Distinct(o: seq<nat>) {
    forall i, j :: 0 <= i < j < |o| ==> o[i] != o[j]
  }

  predicate StrictlySorted(rows: seq<Song>, ord: Ordering, o: seq<nat>)
    requires InRange(rows, o)
  {
    forall i, j :: 0 <= i < j < |o| ==> Lex.Less(RankKey(rows, ord, o[i]), RankKey(rows, ord, o[j]))
  }

  lemma SortedIsDistinct(rows: seq<Song>, ord: Ordering, o: seq<nat>)
    requires InRange(rows, o) && StrictlySorted(rows, ord, o)
    ensures Distinct(o)
  {
    forall i, j | 0 <= i < j < |o|
      ensures o[i] != o[j]
    {
      if o[i] == o[j] {
        Lex.Irreflexive(RankKey(rows, ord, o[i]));
      }
    }
  }

  /** Insertion of one index into a sorted list of indices. */
  function Insert(rows: seq<Song>, ord: Ordering, x: nat, o: seq<nat>): (r: seq<nat>)
    requires x < |rows| && InRange(rows, o)
    ensures InRange(rows, r) && |r| == |o| + 1
    ensures forall v :: v in r <==> v == x || v in o
  {
    if o == [] then [x]
    else if Lex.Less(RankKey(rows, ord, x), RankKey(rows, ord, o[0])) then [x] + o
    else [o[0]] + Insert(rows, ord, x, o[1..])
  }

  /** In a sorted list every later element ranks above the first. */
  lemma FirstIsLeast(rows: seq<Song>, ord: Ordering, o: seq<nat>, j: nat)
    requires InRange(rows, o) && StrictlySorted(rows, ord, o) && 0 < j < |o|
    ensures Lex.Less(RankKey(rows, ord, o[0]), RankKey(rows, ord, o[j]))
  {
  }

  lemma {:induction false} InsertSorted(rows: seq<Song>, ord: Ordering, x: nat, o: seq<nat>)
    requires x < |rows| && InRange(rows, o) && x !in o
    requires StrictlySorted(rows, ord, o)
    ensures StrictlySorted(rows, ord, Insert(rows, ord, x, o))
  {
    if o == [] {
    } else if Lex.Less(RankKey(rows, ord, x), RankKey(rows, ord, o[0])) {
      forall j | 0 <= j < |o|
        ensures Lex.Less(RankKey(rows, ord, x), RankKey(rows, ord, o[j]))
      {
        if j > 0 {
          FirstIsLeast(rows, ord, o, j);
          Lex.Transitive(RankKey(rows, ord, x), RankKey(rows, ord, o[0]), RankKey(rows, ord, o[j]));
        }
      }
      ConsSorted(rows, ord, x, o);
    } else {
      var head, tail := o[0], o[1..];
      assert x != head;
      RankKeysDiffer(rows, ord, x, head);
      InsertSorted(rows, ord, x, tail);
      var rest := Insert(rows, ord, x, tail);
      forall j | 0 <= j < |rest|
        ensures Lex.Less(RankKey(rows, ord, head), RankKey(rows, ord, rest[j]))
      {
        assert rest[j] in rest;
        if rest[j] != x {
          var k :| 0 <= k < |tail| && tail[k] == rest[j];
          assert o[k + 1] == rest[j];
          FirstIsLeast(rows, ord, o, k + 1);
        }
      }
      ConsSorted(rows, ord, head, rest);
    }
  }

  /** The indices 0..n-1 sorted by rank key. */
  function SortIndices(rows: seq<Song>, ord: Ordering, n: nat): (r: seq<nat>)
    requires n <= |rows|
    ensures InRange(rows, r) && |r| == n
    ensures forall v :: v in r <==> 0 <= v < n
  {
    if n == 0 then [] else Insert(rows, ord, n - 1, SortIndices(rows, ord, n - 1))
  }

  lemma {:induction false} SortIndicesSorted(rows: seq<Song>, ord: Ordering, n: nat)
    requires n <= |rows|
    ensures StrictlySorted(rows, ord, SortIndices(rows, ord, n))
  {
    if n > 0 {
      SortIndicesSorted(rows, ord, n - 1);
      InsertSorted(rows, ord, n - 1, SortIndices(rows, ord, n - 1));
    }
  }

  /** Every row index, sorted by the given ordering (ties by storage order). */
  function Order(rows: seq<Song>, ord: Ordering): (r: seq<nat>)
    ensures InRange(rows, r) && |r| == |rows|
    ensures forall v :: v in r <==> 0 <= v < |rows|
  {
    SortIndices(rows, ord, |rows|)
  }

  lemma OrderSorted(rows: seq<Song>, ord: Ordering)
    ensures StrictlySorted(rows, ord, Order(rows, ord)) && Distinct(Order(rows, ord))
  {
    SortIndicesSorted(rows, ord, |rows|);
    SortedIsDistinct(rows, ord, Order(rows, ord));
  }

  /** In a sorted list of indices, a row with a strictly smaller sort key comes earlier. */
  lemma SortedRespectsKeys(rows: seq<Song>, ord: Ordering, o: seq<nat>, i: nat, j: nat)
    requires InRange(rows, o) && StrictlySorted(rows, ord, o)
    requires i < |o| && j < |o|
    requires Lex.Less(SortKey(ord, rows[o[i]]), SortKey(ord, rows[o[j]]))
    ensures i < j
  {
    RankKeyRespectsSortKey(rows, ord, o[i], o[j]);
    if j < i {
      Lex.Asymmetric(RankKey(rows, ord, o[i]), RankKey(rows, ord, o[j]));
    } else if i == j {
      Lex.Irreflexive(RankKey(rows, ord, o[i]));
    }
  }

  /** Sorting looks only at sort keys: tables that agree on them sort alike. */
  lemma {:induction false} InsertSameKeys(r1: seq<Song>, r2: seq<Song>, ord: Ordering, x: nat, o: seq<nat>)
    requires |r1| == |r2| && x < |r1| && InRange(r1, o)
    requires forall i :: 0 <= i < |r1| ==> SortKey(ord, r1[i]) == SortKey(ord, r2[i])
    ensures Insert(r1, ord, x, o) == Insert(r2, ord, x, o)
  {
    if o != [] {
      assert RankKey(r1, ord, x) == RankKey(r2, ord, x);
      assert RankKey(r1, ord, o[0]) == RankKey(r2, ord, o[0]);
      InsertSameKeys(r1, r2, ord, x, o[1..]);
    }
  }

  lemma {:induction false} SortIndicesSameKeys(r1: seq<Song>, r2: seq<Song>, ord: Ordering, n: nat)
    requires |r1| == |r2| && n <= |r1|
    requires forall i :: 0 <= i < |r1| ==> SortKey(ord, r1[i]) == SortKey(ord, r2[i])
    ensures SortIndices(r1, ord, n) == SortIndices(r2, ord, n)
  {
    if n > 0 {
      var o := SortIndices(r1, ord, n - 1);
      SortIndicesSameKeys(r1, r2, ord, n - 1);
      InsertSameKeys(r1, r2, ord, n - 1, o);
      assert SortIndices(r1, ord, n) == Insert(r1, ord, n - 1, o);
      assert SortIndices(r2, ord, n) == Insert(r2, ord, n - 1, o);
    }
  }

  // ---------------------------------------------------------------------------
  // Renumbering
  // ---------------------------------------------------------------------------

  /** The rows after `for i, s in enumerate(o): s.position = i`. */
  function Renumber(rows: seq<Song>, o: seq<nat>): (r: seq<Song>)
    requires InRange(rows, o)
    ensures |r| == |rows|
  {
    if o == [] then rows
    else
      var p := Renumber(rows, o[..|o| - 1]);
      var x := o[|o| - 1];
      p[x := p[x].(position := |o| - 1)]
  }

  /** Renumbering one more entry of a list overwrites that entry's row with its place. */
  lemma RenumberStep(rows: seq<Song>, o: seq<nat>, i: nat)
    requires InRange(rows, o) && i < |o|
    ensures InRange(rows, o[..i]) && InRange(rows, o[..i + 1])
    ensures var p := Renumber(rows, o[..i]);
      Renumber(rows, o[..i + 1]) == p[o[i] := p[o[i]].(position := i)]
  {
    var q := o[..i + 1];
    assert q[..|q| - 1] == o[..i];
  }

  /** Each listed row takes its place in the list as position; every other field, and every unlisted row, is as before. */
  lemma {:induction false} RenumberAt(rows: seq<Song>, o: seq<nat>)
    requires InRange(rows, o) && Distinct(o)
    ensures forall j :: 0 <= j < |o| ==> Renumber(rows, o)[o[j]] == rows[o[j]].(position := j)
    ensures forall i :: 0 <= i < |rows| && i !in o ==> Renumber(rows, o)[i] == rows[i]
  {
    if o != [] {
      var init := o[..|o| - 1];
      RenumberAt(rows, init);
      forall i | 0 <= i < |rows| && i !in o
        ensures Renumber(rows, o)[i] == rows[i]
      {
        assert forall k :: 0 <= k < |init| ==> init[k] == o[k];
        assert i !in init;
      }
      forall j | 0 <= j < |o|
        ensures Renumber(rows, o)[o[j]] == rows[o[j]].(position := j)
      {
        if j < |o| - 1 {
          assert init[j] == o[j];
        } else {
          assert forall k :: 0 <= k < |init| ==> init[k] == o[k] && o[k] != o[j];
          assert o[j] !in init;
        }
      }
    }
  }

  /** Positions are exactly 0..n-1, each used once. */
  predicate Dense(rows: seq<Song>) {
    (forall i :: 0 <= i < |rows| ==> 0 <= rows[i].position < |rows|) &&
    (forall i, j :: 0 <= i < j < |rows| ==> rows[i].position != rows[j].position)
  }

  /** Renumbering along a list that names every row exactly once leaves the positions dense. */
  lemma RenumberAllIsDense(rows: seq<Song>, o: seq<nat>)
    requires InRange(rows, o) && Distinct(o) && |o| == |rows|
    requires forall v :: 0 <= v < |rows| ==> v in o
    ensures Dense(Renumber(rows, o))
  {
    var r := Renumber(rows, o);
    RenumberAt(rows, o);
    forall i | 0 <= i < |rows|
      ensures exists k :: 0 <= k < |o| && o[k] == i && r[i].position == k
    {
      assert i in o;
      var k :| 0 <= k < |o| && o[k] == i;
      assert r[o[k]].position == k;
    }
    forall i, j | 0 <= i < j < |rows|
      ensures r[i].position != r[j].position
    {
      var ki :| 0 <= ki < |o| && o[ki] == i && r[i].position == ki;
      var kj :| 0 <= kj < |o| && o[kj] == j && r[j].position == kj;
    }
  }

  // ---------------------------------------------------------------------------
  // Rotation after a play
  // ---------------------------------------------------------------------------

  /** `[x for x in o if x != k]`: the list without one entry. */
  function Without(o: seq<nat>, x: nat): (r: seq<nat>)
    ensures forall v :: v in r <==> v in o && v != x
    ensures |r| <= |o|
  {
    if o == [] then []
    else if o[0] == x then Without(o[1..], x)
    else [o[0]] + Without(o[1..], x)
  }

  lemma {:induction false} WithoutLength(o: seq<nat>, x: nat)
    requires Distinct(o) && x in o
    ensures |Without(o, x)| == |o| - 1
  {
    if o[0] == x {
      assert x !in o[1..];
      WithoutAbsent(o[1..], x);
    } else {
      WithoutLength(o[1..], x);
    }
  }

  lemma {:induction false} WithoutAbsent(o: seq<nat>, x: nat)
    requires x !in o
    ensures Without(o, x) == o
  {
    if o != [] {
      WithoutAbsent(o[1..], x);
    }
  }

  /** A list whose head sorts before every later entry is sorted when its tail is. */
  lemma ConsSorted(rows: seq<Song>, ord: Ordering, h: nat, t: seq<nat>)
    requires h < |rows| && InRange(rows, t) && StrictlySorted(rows, ord, t)
    requires forall j :: 0 <= j < |t| ==> Lex.Less(RankKey(rows, ord, h), RankKey(rows, ord, t[j]))
    ensures InRange(rows, [h] + t) && StrictlySorted(rows, ord, [h] + t)
  {
    var r := [h] + t;
    forall i, j | 0 <= i < j < |r|
      ensures Lex.Less(RankKey(rows, ord, r[i]), RankKey(rows, ord, r[j]))
    {
      assert r[j] == t[j - 1];
      if i > 0 {
        assert r[i] == t[i - 1];
      }
    }
  }

  lemma {:induction false} WithoutSorted(rows: seq<Song>, ord: Ordering, o: seq<nat>, x: nat)
    requires InRange(rows, o) && StrictlySorted(rows, ord, o)
    ensures InRange(rows, Without(o, x)) && StrictlySorted(rows, ord, Without(o, x))
  {
    if o != [] {
      var t := o[1..];
      WithoutSorted(rows, ord, t, x);
      if o[0] != x {
        var w := Without(t, x);
        forall j | 0 <= j < |w|
          ensures Lex.Less(RankKey(rows, ord, o[0]), RankKey(rows, ord, w[j]))
        {
          assert w[j] in t;
          var k :| 0 <= k < |t| && t[k] == w[j];
          assert o[k + 1] == w[j];
        }
        ConsSorted(rows, ord, o[0], w);
      }
    }
  }

  /** The place of `v` in a list that holds it. */
  function IndexIn(o: seq<nat>, v: nat): (m: nat)
    requires v in o
    ensures m < |o| && o[m] == v
  {
    if o[0] == v then 0 else 1 + IndexIn(o[1..], v)
  }

  /** A listed row's new position is its place in the list. */
  lemma RenumberPosition(rows: seq<Song>, o: seq<nat>, v: nat)
    requires InRange(rows, o) && Distinct(o) && v in o
    ensures v < |rows| && Renumber(rows, o)[v] == rows[v].(position := IndexIn(o, v))
  {
    RenumberAt(rows, o);
    var m := IndexIn(o, v);
    assert Renumber(rows, o)[o[m]] == rows[o[m]].(position := m);
  }

  /** The play order after row `k` is played: everyone else by current position, then `k`. */
  function RotationOrder(rows: seq<Song>, k: nat): seq<nat>
    requires k < |rows|
  {
    Without(Order(rows, ByPosition), k) + [k]
  }

  lemma RotationOrderFacts(rows: seq<Song>, k: nat)
    requires k < |rows|
    ensures InRange(rows, RotationOrder(rows, k))
    ensures |RotationOrder(rows, k)| == |rows|
    ensures RotationOrder(rows, k)[|rows| - 1] == k
    ensures forall v :: 0 <= v < |rows| ==> v in RotationOrder(rows, k)
    ensures Distinct(RotationOrder(rows, k))
    ensures RotationOrder(rows, k)[..|rows| - 1] == Without(Order(rows, ByPosition), k)
    ensures StrictlySorted(rows, ByPosition, Without(Order(rows, ByPosition), k))
  {
    var o := Order(rows, ByPosition);
    OrderSorted(rows, ByPosition);
    WithoutLength(o, k);
    WithoutSorted(rows, ByPosition, o, k);
    var w := Without(o, k);
    var ro := w + [k];
    assert ro == RotationOrder(rows, k);
    assert ro[..|rows| - 1] == w;
    SortedIsDistinct(rows, ByPosition, w);
    assert k !in w;
    forall i, j | 0 <= i < j < |ro|
      ensures ro[i] != ro[j]
    {
      if j == |ro| - 1 {
        assert ro[i] == w[i] && w[i] in w;
      } else {
        assert ro[i] == w[i] && ro[j] == w[j];
      }
    }
    forall v | 0 <= v < |rows|
      ensures v in ro
    {
      if v != k {
        assert v in w;
      }
    }
  }

  /** The rows after `play_music` stamps row `k` with `now` and moves it to the end of the position order. */
  function Rotate(rows: seq<Song>, k: nat, now: int): (r: seq<Song>)
    requires k < |rows|
    ensures |r| == |rows|
  {
    var played := rows[k := rows[k].(lastPlayedAt := Some(now))];
    RotationOrderFacts(played, k);
    Renumber(played, RotationOrder(played, k))
  }

  /** Every row but the played one takes its place among the others, sorted by position, as its new position. */
  lemma RotateOther(rows: seq<Song>, k: nat, now: int, i: nat)
    requires k < |rows| && i < |rows| && i != k
    ensures var played := rows[k := rows[k].(lastPlayedAt := Some(now))];
      var w := Without(Order(played, ByPosition), k);
      i in w && Rotate(rows, k, now)[i] == rows[i].(position := IndexIn(w, i))
  {
    var played := rows[k := rows[k].(lastPlayedAt := Some(now))];
    var ro := RotationOrder(played, k);
    var w := Without(Order(played, ByPosition), k);
    RotationOrderFacts(played, k);
    assert i in w;
    assert ro == w + [k];
    RenumberPosition(played, ro, i);
    var m := IndexIn(w, i);
    assert ro[m] == i;
    var mi := IndexIn(ro, i);
    assert ro[mi] == ro[m];
    assert mi == m;
  }

  /** After a play, positions are exactly 0..n-1. */
  lemma RotateDense(rows: seq<Song>, k: nat, now: int)
    requires k < |rows|
    ensures Dense(Rotate(rows, k, now))
  {
    var played := rows[k := rows[k].(lastPlayedAt := Some(now))];
    RotationOrderFacts(played, k);
    RenumberAllIsDense(played, RotationOrder(played, k));
  }

  /** The played row holds position n-1, sorts after every other row, and carries the new last-played time. */
  lemma RotatePlayedLast(rows: seq<Song>, k: nat, now: int)
    requires k < |rows|
    ensures Rotate(rows, k, now)[k] == rows[k].(position := |rows| - 1, lastPlayedAt := Some(now))
    ensures forall i :: 0 <= i < |rows| && i != k ==> Rotate(rows, k, now)[i].position < Rotate(rows, k, now)[k].position
  {
    var played := rows[k := rows[k].(lastPlayedAt := Some(now))];
    var ro := RotationOrder(played, k);
    RotationOrderFacts(played, k);
    RenumberAt(played, ro);
    assert Rotate(rows, k, now)[ro[|rows| - 1]] == played[k].(position := |rows| - 1);
    RotateDense(rows, k, now);
  }

  /** Apart from the played row, a play rewrites positions and nothing else. */
  lemma RotateOnlyPositions(rows: seq<Song>, k: nat, now: int)
    requires k < |rows|
    ensures forall i :: 0 <= i < |rows| && i != k ==> Rotate(rows, k, now)[i] == rows[i].(position := Rotate(rows, k, now)[i].position)
  {
    forall i | 0 <= i < |rows| && i != k
      ensures Rotate(rows, k, now)[i] == rows[i].(position := Rotate(rows, k, now)[i].position)
    {
      RotateOther(rows, k, now, i);
    }
  }

  /** The rows that were not played keep their relative order by position. */
  lemma RotateKeepsRelativeOrder(rows: seq<Song>, k: nat, now: int, i: nat, j: nat)
    requires k < |rows| && i < |rows| && j < |rows| && i != k && j != k
    requires rows[i].position < rows[j].position
    ensures Rotate(rows, k, now)[i].position < Rotate(rows, k, now)[j].position
  {
    var played := rows[k := rows[k].(lastPlayedAt := Some(now))];
    var w := Without(Order(played, ByPosition), k);
    OrderSorted(played, ByPosition);
    WithoutSorted(played, ByPosition, Order(played, ByPosition), k);
    RotateOther(rows, k, now, i);
    RotateOther(rows, k, now, j);
    var mi, mj := IndexIn(w, i), IndexIn(w, j);
    assert played[i] == rows[i] && played[j] == rows[j];
    var ki, kj := SortKey(ByPosition, played[i]), SortKey(ByPosition, played[j]);
    assert ki == [rows[i].position] && kj == [rows[j].position];
    assert Lex.Less(ki, kj);
    SortedRespectsKeys(played, ByPosition, w, mi, mj);
  }

  // ---------------------------------------------------------------------------
  // Reset from play history
  // ---------------------------------------------------------------------------

  /** The rows after `reset_song_positions`: positions renumbered along the history ordering. */
  function ResetPositions(rows: seq<Song>): (r: seq<Song>)
    ensures |r| == |rows|
  {
    Renumber(rows, Order(rows, ByHistory))
  }

  /**
   * After a reset the positions are exactly 0..n-1, only positions change, and
   * a row with higher priority (then never played, then played longer ago) gets
   * the smaller position.
   */
  lemma ResetSpec(rows: seq<Song>)
    ensures var r := ResetPositions(rows);
      Dense(r) &&
      (forall i :: 0 <= i < |rows| ==> r[i] == rows[i].(position := r[i].position)) &&
      (forall i, j :: 0 <= i < |rows| && 0 <= j < |rows| && Lex.Less(HistoryKey(rows[i]), HistoryKey(rows[j]))
         ==> r[i].position < r[j].position)
  {
    var o := Order(rows, ByHistory);
    var r := ResetPositions(rows);
    OrderSorted(rows, ByHistory);
    RenumberAt(rows, o);
    RenumberAllIsDense(rows, o);
    forall i | 0 <= i < |rows|
      ensures exists m :: 0 <= m < |o| && o[m] == i && r[i] == rows[i].(position := m)
    {
      assert i in o;
      var m :| 0 <= m < |o| && o[m] == i;
    }
    forall i, j | 0 <= i < |rows| && 0 <= j < |rows| && Lex.Less(HistoryKey(rows[i]), HistoryKey(rows[j]))
      ensures r[i].position < r[j].position
    {
      var mi :| 0 <= mi < |o| && o[mi] == i && r[i] == rows[i].(position := mi);
      var mj :| 0 <= mj < |o| && o[mj] == j && r[j] == rows[j].(position := mj);
      SortedRespectsKeys(rows, ByHistory, o, mi, mj);
    }
  }

  /** The reset does not depend on the positions the rows had before. */
  lemma ResetIgnoresPositions(r1: seq<Song>, r2: seq<Song>)
    requires |r1| == |r2|
    requires forall i :: 0 <= i < |r1| ==> r1[i].(position := 0) == r2[i].(position := 0)
    ensures ResetPositions(r1) == ResetPositions(r2)
  {
    forall i | 0 <= i < |r1|
      ensures SortKey(ByHistory, r1[i]) == SortKey(ByHistory, r2[i])
    {
      assert r1[i].(position := 0).priority == r2[i].(position := 0).priority;
      assert r1[i].(position := 0).lastPlayedAt == r2[i].(position := 0).lastPlayedAt;
    }
    SortIndicesSameKeys(r1, r2, ByHistory, |r1|);
    var o := Order(r1, ByHistory);
    OrderSorted(r1, ByHistory);
    RenumberAt(r1, o);
    RenumberAt(r2, o);
    forall i | 0 <= i < |r1|
      ensures ResetPositions(r1)[i] == ResetPositions(r2)[i]
    {
      assert i in o;
      var m :| 0 <= m < |o| && o[m] == i;
      assert r1[i].(position := m) == r1[i].(position := 0).(position := m);
      assert r2[i].(position := m) == r2[i].(position := 0).(position := m);
    }
  }

  // ---------------------------------------------------------------------------
  // Lookup and table integrity
  // ---------------------------------------------------------------------------

  /** `session.get(Song, id)`: the row with that primary key, if any. */
  function IndexOf(rows: seq<Song>, id: int): (r: Option<nat>)
    ensures r.Some? ==> r.value < |rows| && rows[r.value].id == id
    ensures r.None? ==> forall i :: 0 <= i < |rows| ==> rows[i].id != id
  {
    if rows == [] then None
    else if rows[0].id == id then Some(0)
    else
      match IndexOf(rows[1..], id)
      case None => None
      case Some(i) => Some(i + 1)
  }

  /** The primary key and the unique constraint on `filename`. */
  predicate ValidTable(rows: seq<Song>) {
    (forall i, j :: 0 <= i < j < |rows| ==> rows[i].id != rows[j].id) &&
    (forall i, j :: 0 <= i < j < |rows| ==> rows[i].filename != rows[j].filename)
  }

  /** Two tables hold the same rows up to positions and play times. */
  predicate SameIdentities(r1: seq<Song>, r2: seq<Song>) {
    |r1| == |r2| &&
    forall i :: 0 <= i < |r1| ==> r1[i].id == r2[i].id && r1[i].filename == r2[i].filename
  }

  lemma SameIdentitiesValid(r1: seq<Song>, r2: seq<Song>)
    requires ValidTable(r1) && SameIdentities(r1, r2)
    ensures ValidTable(r2)
  {
  }

  lemma RotateKeepsIdentities(rows: seq<Song>, k: nat, now: int)
    requires k < |rows|
    ensures SameIdentities(rows, Rotate(rows, k, now))
  {
    RotateOnlyPositions(rows, k, now);
    RotatePlayedLast(rows, k, now);
  }

  lemma ResetKeepsIdentities(rows: seq<Song>)
    ensures SameIdentities(rows, ResetPositions(rows))
  {
    ResetSpec(rows);
  }

  // ---------------------------------------------------------------------------
  // Manual reorder
  // ---------------------------------------------------------------------------

  /** One entry of the reorder request, `{id, position}`, either of which may be missing. */
  datatype OrderItem = OrderItem(id: Option<int>, position: Option<int>)

  /** One iteration of the reorder loop: skip incomplete entries and unknown ids, otherwise overwrite that row's position. */
  function ApplyItem(rows: seq<Song>, item: OrderItem): (r: seq<Song>)
    ensures SameIdentities(rows, r)
  {
    if item.id.None? || item.position.None? then rows
    else
      match IndexOf(rows, item.id.value)
      case None => rows
      case Some(i) => rows[i := rows[i].(position := item.position.value)]
  }

  /** The rows after the whole reorder request, entries applied in order. */
  function ApplyOrder(rows: seq<Song>, items: seq<OrderItem>): (r: seq<Song>)
    ensures SameIdentities(rows, r)
  {
    if items == [] then rows else ApplyItem(ApplyOrder(rows, items[..|items| - 1]), items[|items| - 1])
  }

  /** The position the last complete entry for `id` asks for, if any entry names it. */
  function LastRequested(items: seq<OrderItem>, id: int): Option<int> {
    if items == [] then None
    else
      var last := items[|items| - 1];
      if last.id == Some(id) && last.position.Some? then last.position
      else LastRequested(items[..|items| - 1], id)
  }

  /**
   * A reorder sets each named row's position to what the last complete entry
   * for it asks; rows no entry names, and every other field, keep their values.
   */
  lemma {:induction false} ApplyOrderSpec(rows: seq<Song>, items: seq<OrderItem>)
    requires ValidTable(rows)
    ensures forall i :: 0 <= i < |rows| ==>
      ApplyOrder(rows, items)[i] == rows[i].(position := LastRequested(items, rows[i].id).GetOr(rows[i].position))
  {
    if items != [] {
      var init := items[..|items| - 1];
      var last := items[|items| - 1];
      var p := ApplyOrder(rows, init);
      ApplyOrderSpec(rows, init);
      SameIdentitiesValid(rows, p);
      forall i | 0 <= i < |rows|
        ensures ApplyItem(p, last)[i] == rows[i].(position := LastRequested(items, rows[i].id).GetOr(rows[i].position))
      {
        if last.id.Some? && last.position.Some? {
          match IndexOf(p, last.id.value)
          case None =>
            assert p[i].id != last.id.value;
          case Some(m) =>
            if m != i {
              assert p[i].id != p[m].id;
            }
        }
      }
    }
  }

  // ---------------------------------------------------------------------------
  // Insertion
  // ---------------------------------------------------------------------------

  /** `SELECT MAX(position)`: `None` (SQL NULL) for an empty table. */
  function MaxPosition(rows: seq<Song>): (m: Option<int>)
    ensures m.None? <==> rows == []
    ensures m.Some? ==> (forall i :: 0 <= i < |rows| ==> rows[i].position <= m.value) &&
                        (exists i :: 0 <= i < |rows| && rows[i].position == m.value)
  {
    if rows == [] then None
    else
      match MaxPosition(rows[1..])
      case None => Some(rows[0].position)
      case Some(m) => if rows[0].position >= m then Some(rows[0].position) else Some(m)
  }

  /** `(max(position) or -1) + 1`: Python treats a maximum of 0 like a missing one. */
  function NextPosition(rows: seq<Song>): int {
    var m := MaxPosition(rows);
    (if m.None? || m.value == 0 then -1 else m.value) + 1
  }

  /**
   * A new row goes to position 0 on an empty table and after the largest
   * position otherwise, except that a largest position of 0 also yields 0,
   * which the existing row at 0 then shares.
   */
  lemma NextPositionSpec(rows: seq<Song>)
    ensures rows == [] ==> NextPosition(rows) == 0
    ensures rows != [] && MaxPosition(rows).value != 0 ==>
      NextPosition(rows) == MaxPosition(rows).value + 1 &&
      forall i :: 0 <= i < |rows| ==> rows[i].position < NextPosition(rows)
    ensures rows != [] && MaxPosition(rows).value == 0 ==>
      NextPosition(rows) == 0 && exists i :: 0 <= i < |rows| && rows[i].position == NextPosition(rows)
  {
  }

  /** The primary key the database gives a new row: one more than the largest in use. */
  function FreshId(rows: seq<Song>): (r: int)
    ensures r >= 1 && forall i :: 0 <= i < |rows| ==> rows[i].id < r
  {
    if rows == [] then 1
    else
      var rest := FreshId(rows[1..]);
      if rows[0].id >= rest then rows[0].id + 1 else rest
  }

  predicate HasFilename(rows: seq<Song>, filename: string) {
    exists i :: 0 <= i < |rows| && rows[i].filename == filename
  }

  datatype InsertError = DuplicateFilename | NoDuration | NoFileSelected | InvalidFileType

  /**
   * How a song reaches the table: a single downloaded track, an uploaded file
   * (with the name the client gave it), or one track of a playlist download.
   */
  datatype AddKind = Downloaded | Uploaded(clientName: string) | FromPlaylist

  function SourceOf(kind: AddKind): Source {
    match kind
    case Downloaded => YouTube
    case Uploaded(_) => Upload
    case FromPlaylist => YouTubePlaylist
  }

  function NewSong(rows: seq<Song>, kind: AddKind, title: string, filename: string, duration: nat, createdAt: int): Song {
    Song(FreshId(rows), title, filename, 0, NextPosition(rows), SourceOf(kind), duration, createdAt, None)
  }

  /**
   * The table after adding a song. A single download refuses a zero duration
   * before looking for the filename; an upload first refuses an empty client
   * name and one without an allowed extension, then looks for the filename,
   * then refuses a zero duration; a playlist track is only refused as a
   * duplicate.
   */
  function AddSong(rows: seq<Song>, kind: AddKind, title: string, filename: string, duration: nat, createdAt: int)
    : Result<seq<Song>, InsertError>
  {
    if kind == Downloaded && duration == 0 then Err(NoDuration)
    else if kind.Uploaded? && kind.clientName == [] then Err(NoFileSelected)
    else if kind.Uploaded? && !Files.AllowedFile(kind.clientName) then Err(InvalidFileType)
    else if HasFilename(rows, filename) then Err(DuplicateFilename)
    else if kind.Uploaded? && duration == 0 then Err(NoDuration)
    else Ok(rows + [NewSong(rows, kind, title, filename, duration, createdAt)])
  }

  /**
   * An upload whose client name is empty or lacks an allowed extension is
   * refused for that reason before anything else; otherwise a song whose
   * filename is already in the table is refused as a duplicate; a song that
   * passes every check is accepted, and is appended with a fresh id, its
   * title, filename, duration and source, the next position, no play history
   * and default priority, and the table stays valid.
   */
  lemma AddSongSpec(rows: seq<Song>, kind: AddKind, title: string, filename: string, duration: nat, createdAt: int)
    requires ValidTable(rows)
    ensures HasFilename(rows, filename) ==> AddSong(rows, kind, title, filename, duration, createdAt).Err?
    ensures HasFilename(rows, filename) && !(kind == Downloaded && duration == 0) &&
            (kind.Uploaded? ==> Files.AllowedFile(kind.clientName)) ==>
      AddSong(rows, kind, title, filename, duration, createdAt) == Err(DuplicateFilename)
    ensures !HasFilename(rows, filename) && (kind != FromPlaylist ==> duration > 0) &&
            (kind.Uploaded? ==> kind.clientName != [] && Files.AllowedFile(kind.clientName)) ==>
      AddSong(rows, kind, title, filename, duration, createdAt).Ok?
    ensures kind.Uploaded? && kind.clientName == [] ==> AddSong(rows, kind, title, filename, duration, createdAt) == Err(NoFileSelected)
    ensures kind.Uploaded? && kind.clientName != [] && !Files.AllowedFile(kind.clientName) ==>
      AddSong(rows, kind, title, filename, duration, createdAt) == Err(InvalidFileType)
    ensures duration == 0 && kind.Uploaded? && Files.AllowedFile(kind.clientName) ==>
      AddSong(rows, kind, title, filename, duration, createdAt) == Err(NoDuration) ||
      AddSong(rows, kind, title, filename, duration, createdAt) == Err(DuplicateFilename)
    ensures duration == 0 && kind == Downloaded ==> AddSong(rows, kind, title, filename, duration, createdAt) == Err(NoDuration)
    ensures match AddSong(rows, kind, title, filename, duration, createdAt)
      case Ok(r) =>
        !HasFilename(rows, filename) && (kind.Uploaded? ==> Files.AllowedFile(kind.clientName)) && ValidTable(r) && r[..|rows|] == rows && |r| == |rows| + 1 &&
        r[|rows|].title == title && r[|rows|].filename == filename && r[|rows|].duration == duration &&
        r[|rows|].priority == 0 && r[|rows|].position == NextPosition(rows) &&
        r[|rows|].lastPlayedAt.None? && r[|rows|].source == SourceOf(kind) &&
        forall i :: 0 <= i < |rows| ==> rows[i].id != r[|rows|].id
      case Err(_) => true
  {
  }

  /** Deleting a row removes exactly the song with that id and keeps the table valid. */
  lemma RemoveAtSpec(rows: seq<Song>, k: nat)
    requires ValidTable(rows) && k < |rows|
    ensures ValidTable(RemoveAt(rows, k))
    ensures forall s :: s in RemoveAt(rows, k) <==> s in rows && s.id != rows[k].id
  {
    var r := RemoveAt(rows, k);
    assert forall i :: 0 <= i < |r| ==> r[i] == rows[if i < k then i else i + 1];
    forall s | s in rows && s.id != rows[k].id
      ensures s in r
    {
      var i :| 0 <= i < |rows| && rows[i] == s;
      assert i != k;
      assert r[if i < k then i else i - 1] == s;
    }
  }

  /**
   * With two songs, the one at the smaller position plays first whatever the
   * priorities; once it has played it moves behind the other, which then
   * takes position 0 and plays next.
   */
  lemma TwoSongRotation(rows: seq<Song>, now: int)
    requires |rows| == 2 && rows[0].position < rows[1].position
    ensures FirstInPlayOrder(rows) == Some(rows[0])
    ensures FirstInPlayOrder(Rotate(rows, 0, now)) == Some(rows[1].(position := 0))
  {
    FirstOfTwo(rows);
    var r := Rotate(rows, 0, now);
    RotatePlayedLast(rows, 0, now);
    assert r[0].position == 1;
    RotateDense(rows, 0, now);
    assert r[1].position == 0;
    RotateOnlyPositions(rows, 0, now);
    assert r[1] == rows[1].(position := 0);
    FirstOfTwo(r);
  }

  /** Between two rows at different positions, the smaller position comes first. */
  lemma FirstOfTwo(rows: seq<Song>)
    requires |rows| == 2
    ensures rows[0].position < rows[1].position ==> FirstInPlayOrder(rows) == Some(rows[0])
    ensures rows[1].position < rows[0].position ==> FirstInPlayOrder(rows) == Some(rows[1])
  {
    assert rows[1..][1..] == [];
  }

  // ---------------------------------------------------------------------------
  // The table as the application mutates it
  // ---------------------------------------------------------------------------

  /** The rows without the one at index `k`. */
  function RemoveAt(rows: seq<Song>, k: nat): (r: seq<Song>)
    requires k < |rows|
    ensures |r| == |rows| - 1
  {
    rows[..k] + rows[k + 1..]
  }

  class SongTable {
    var rows: seq<Song>

    ghost predicate Valid()
      reads this
    {
      ValidTable(rows)
    }

    constructor ()
      ensures Valid() && rows == []
    {
      rows := [];
    }

    /** The row update of a successful `play_music`: stamp the played row, then renumber with it moved to the end. */
    method RecordPlayed(k: nat, now: int)
      requires Valid() && k < |rows|
      modifies this
      ensures Valid() && rows == Rotate(old(rows), k, now)
    {
      ghost var before := rows;
      rows := rows[k := rows[k].(lastPlayedAt := Some(now))];
      var others := Without(Order(rows, ByPosition), k) + [k];
      RotationOrderFacts(rows, k);
      ghost var played := rows;
      for i := 0 to |others|
        invariant rows == Renumber(played, others[..i])
      {
        RenumberStep(played, others, i);
        rows := rows[others[i] := rows[others[i]].(position := i)];
      }
      assert others[..|others|] == others;
      assert rows == Rotate(before, k, now);
      RotateKeepsIdentities(before, k, now);
      SameIdentitiesValid(before, rows);
    }

    /** `reset_song_positions`: renumber every row along the history ordering. */
    method ResetSongPositions()
      requires Valid()
      modifies this
      ensures Valid() && rows == ResetPositions(old(rows))
    {
      var songs := Order(rows, ByHistory);
      ghost var start := rows;
      for i := 0 to |songs|
        invariant rows == Renumber(start, songs[..i])
      {
        RenumberStep(start, songs, i);
        rows := rows[songs[i] := rows[songs[i]].(position := i)];
      }
      assert songs[..|songs|] == songs;
      ResetKeepsIdentities(start);
      SameIdentitiesValid(start, rows);
    }

    /** `update_song_order`: apply each complete entry whose id names a row. */
    method UpdateSongOrder(items: seq<OrderItem>)
      requires Valid()
      modifies this
      ensures Valid() && rows == ApplyOrder(old(rows), items)
    {
      ghost var start := rows;
      for n := 0 to |items|
        invariant rows == ApplyOrder(start, items[..n])
      {
        assert items[..n + 1][..n] == items[..n];
        var item := items[n];
        if item.id.Some? && item.position.Some? {
          var found := IndexOf(rows, item.id.value);
          if found.Some? {
            var i := found.value;
            rows := rows[i := rows[i].(position := item.position.value)];
          }
        }
      }
      assert items[..|items|] == items;
      SameIdentitiesValid(start, rows);
    }

    /** Add a song as one of the three insertion paths does; `error` is `None` when the row was added. */
    method Add(kind: AddKind, title: string, filename: string, duration: nat, createdAt: int) returns (error: Option<InsertError>)
      requires Valid()
      modifies this
      ensures Valid()
      ensures match AddSong(old(rows), kind, title, filename, duration, createdAt)
        case Ok(r) => error.None? && rows == r
        case Err(e) => error == Some(e) && rows == old(rows)
    {
      AddSongSpec(rows, kind, title, filename, duration, createdAt);
      if kind == Downloaded && duration == 0 {
        return Some(NoDuration);
      }
      if kind.Uploaded? && kind.clientName == [] {
        return Some(NoFileSelected);
      }
      if kind.Uploaded? && !Files.AllowedFile(kind.clientName) {
        return Some(InvalidFileType);
      }
      if HasFilename(rows, filename) {
        return Some(DuplicateFilename);
      }
      if kind.Uploaded? && duration == 0 {
        return Some(NoDuration);
      }
      var song := NewSong(rows, kind, title, filename, duration, createdAt);
      rows := rows + [song];
      error := None;
    }

    /** Delete the row at index `k`. */
    method Remove(k: nat)
      requires Valid() && k < |rows|
      modifies this
      ensures Valid() && rows == RemoveAt(old(rows), k)
    {
      rows := rows[..k] + rows[k + 1..];
    }
  }
}

=== FILE: downloads.dfy ===
/**
 * The download progress record the interface polls: a global dictionary that
 * the playlist download overwrites as it goes and clears when it is done.
 */
module Downloads {
  datatype DownloadState = DownloadState(
    active: bool,
    status: string,
    message: string,
    current: int,
    total: int,
    currentSong: string,
    playlistTitle: string)

  /** The record before any download and after `clear_download_state`. */
  const Idle: DownloadState := DownloadState(false, "", "", 0, 0, "", "")

  /** The statuses that mark a download as over. */
  predicate Terminal(status: string) {
    status == "completed" || status == "error"
  }

  /** The record `set_download_state` writes; every key is overwritten, so nothing of the previous record survives. */
  function Updated(status: string, message: string, current: int, total: int, currentSong: string, playlistTitle: string): DownloadState {
    DownloadState(!Terminal(status), status, message, current, total, currentSong, playlistTitle)
  }

  /** The record keeps its flag in step with its status: active exactly while the status is not terminal. */
  predicate Consistent(d: DownloadState) {
    d.active <==> !Terminal(d.status)
  }

  /**
   * The records `set_download_state` can write are exactly the consistent
   * ones: writing back a record's own fields reproduces it precisely when its
   * flag agrees with its status. So the `analyzing` and `downloading` statuses
   * the playlist download reports leave it active and `completed` and `error`
   * do not.
   */
  lemma UpdatedRoundTrip(d: DownloadState)
    ensures Updated(d.status, d.message, d.current, d.total, d.currentSong, d.playlistTitle) == d <==> Consistent(d)
    ensures Consistent(d) && (d.status == "analyzing" || d.status == "downloading") ==> d.active
    ensures Consistent(d) && (d.status == "completed" || d.status == "error") ==> !d.active
  {
  }

  /**
   * The cleared record is not one a write can produce: every write with an
   * empty status is active, so a poll can tell a cleared tracker from any
   * download in progress.
   */
  lemma IdleNotWritten(status: string, message: string, current: int, total: int, currentSong: string, playlistTitle: string)
    ensures !Consistent(Idle)
    ensures Updated(status, message, current, total, currentSong, playlistTitle) != Idle
  {
    assert !Terminal("");
  }

  class DownloadTracker {
    var state: DownloadState

    constructor ()
      ensures state == Idle
    {
      state := Idle;
    }

    /** `set_download_state`. */
    method Set(status: string, message: string, current: int, total: int, currentSong: string, playlistTitle: string)
      modifies this
      ensures state == Updated(status, message, current, total, currentSong, playlistTitle) && Consistent(state)
    {
      state := DownloadState(status != "completed" && status != "error", status, message, current, total, currentSong, playlistTitle);
    }

    /** `clear_download_state`. */
    method Clear()
      modifies this
      ensures state == Idle && !state.active
    {
      state := Idle;
    }
  }
}

=== FILE: files.dfy ===
/**
 * File-name helpers: the normalisation of a track title into a file name,
 * the lookup of a stored file name on disk, the upload extension check and
 * the playlist URL test.
 */
module Files {
  import opened Wrappers
  import Text

  // ---------------------------------------------------------------------------
  // normalize_filename
  // ---------------------------------------------------------------------------

  /** The characters Python's `str.isspace` accepts, which `\s` matches in a `str` pattern. */
  predicate IsSpace(c: char) {
    var n := c as int;
    9 <= n <= 13 || 0x1C <= n <= 0x20 || 0x2000 <= n <= 0x200A ||
    n in {0x85, 0xA0, 0x1680, 0x2028, 0x2029, 0x202F, 0x205F, 0x3000}
  }

  /** First pass: drop every character that is neither a word character (`isWord`, Python's `\w`) nor whitespace. */
  function KeepWordsAndSpaces(s: string, isWord: char -> bool): (r: string)
    ensures |r| <= |s|
    ensures forall c :: c in r ==> c in s && (isWord(c) || IsSpace(c))
  {
    if s == [] then []
    else (if isWord(s[0]) || IsSpace(s[0]) then [s[0]] else []) + KeepWordsAndSpaces(s[1..], isWord)
  }

  /** Second pass: every plain space becomes an underscore. */
  function SpacesToUnderscores(s: string): (r: string)
    ensures |r| == |s|
    ensures forall i :: 0 <= i < |s| ==> (r[i] == '_' <==> s[i] == ' ' || s[i] == '_')
    ensures forall i :: 0 <= i < |s| && s[i] != ' ' ==> r[i] == s[i]
  {
    seq(|s|, i requires 0 <= i < |s| => if s[i] == ' ' then '_' else s[i])
  }

  /** Third pass: every run of underscores becomes a single one. */
  function CollapseUnderscores(s: string): (r: string)
    ensures |r| <= |s|
    ensures s != [] ==> r != [] && r[0] == s[0]
  {
    if |s| < 2 then s
    else if s[0] == '_' && s[1] == '_' then CollapseUnderscores(s[1..])
    else [s[0]] + CollapseUnderscores(s[1..])
  }

  /** The file name a downloaded title is stored under. */
  function NormalizeFilename(title: string, isWord: char -> bool): string {
    CollapseUnderscores(SpacesToUnderscores(KeepWordsAndSpaces(title, isWord)))
  }

  predicate NoDoubleUnderscore(s: string) {
    forall i :: 0 <= i < |s| - 1 ==> !(s[i] == '_' && s[i + 1] == '_')
  }

  /** `s` with every character of `drop` removed. */
  function Without(s: string, drop: set<char>): string {
    if s == [] then [] else (if s[0] in drop then [] else [s[0]]) + Without(s[1..], drop)
  }

  /** Collapsing leaves no two adjacent underscores, changes nothing but underscores, and is the identity on text already collapsed. */
  lemma {:induction false} CollapseSpec(s: string)
    ensures NoDoubleUnderscore(CollapseUnderscores(s))
    ensures Without(CollapseUnderscores(s), {'_'}) == Without(s, {'_'})
    ensures NoDoubleUnderscore(s) ==> CollapseUnderscores(s) == s
  {
    if |s| >= 2 {
      CollapseSpec(s[1..]);
      var t := CollapseUnderscores(s[1..]);
      assert t[0] == s[1];
      if !(s[0] == '_' && s[1] == '_') {
        var r := [s[0]] + t;
        assert r[1..] == t;
        assert Without(r, {'_'}) == (if s[0] == '_' then [] else [s[0]]) + Without(t, {'_'});
        assert NoDoubleUnderscore(r) by {
          forall i | 0 <= i < |r| - 1
            ensures !(r[i] == '_' && r[i + 1] == '_')
          {
            if i > 0 {
              assert r[i] == t[i - 1] && r[i + 1] == t[i];
            }
          }
        }
      } else {
        assert Without(s, {'_'}) == Without(s[1..], {'_'});
      }
    } else if |s| == 1 {
      assert s[1..] == [];
    }
  }

  lemma {:induction false} KeepWordsAndSpacesKeepsAll(s: string, isWord: char -> bool)
    requires forall c :: c in s ==> isWord(c) || IsSpace(c)
    ensures KeepWordsAndSpaces(s, isWord) == s
  {
    if s != [] {
      assert forall c :: c in s[1..] ==> c in s;
      KeepWordsAndSpacesKeepsAll(s[1..], isWord);
    }
  }

  /**
   * A normalised name has no plain space and no doubled underscore; each of its
   * characters is an underscore, a word character or a non-space whitespace
   * character; and apart from underscores and spaces it holds exactly the
   * word and whitespace characters of the title, in order.
   */
  lemma NormalizeSpec(title: string, isWord: char -> bool)
    ensures ' ' !in NormalizeFilename(title, isWord)
    ensures NoDoubleUnderscore(NormalizeFilename(title, isWord))
    ensures forall c :: c in NormalizeFilename(title, isWord) ==> c == '_' || isWord(c) || (IsSpace(c) && c != ' ')
    ensures Without(NormalizeFilename(title, isWord), {'_'}) == Without(KeepWordsAndSpaces(title, isWord), {'_', ' '})
  {
    var kept := KeepWordsAndSpaces(title, isWord);
    var spaced := SpacesToUnderscores(kept);
    CollapseSpec(spaced);
    CollapseChars(spaced);
    SpacesWithout(kept);
  }

  /** Collapsing only ever removes characters. */
  lemma {:induction false} CollapseChars(s: string)
    ensures forall c :: c in CollapseUnderscores(s) ==> c in s
  {
    if |s| >= 2 {
      CollapseChars(s[1..]);
      assert forall c :: c in s[1..] ==> c in s;
    }
  }

  lemma {:induction false} SpacesWithout(s: string)
    ensures Without(SpacesToUnderscores(s), {'_'}) == Without(s, {'_', ' '})
  {
    if s != [] {
      SpacesWithout(s[1..]);
      assert SpacesToUnderscores(s)[1..] == SpacesToUnderscores(s[1..]);
    }
  }

  /** A run of `n` underscores. */
  function Underscores(n: nat): (r: string)
    ensures |r| == n && forall c :: c in r ==> c == '_'
  {
    seq(n, _ => '_')
  }

  /** Text ending in something other than an underscore is collapsed independently of what follows it. */
  lemma {:induction false} CollapseAfterOther(x: string, z: string)
    requires x != [] && x[|x| - 1] != '_'
    ensures CollapseUnderscores(x + z) == CollapseUnderscores(x) + CollapseUnderscores(z)
  {
    if |x| == 1 {
      if z != [] {
        assert (x + z)[1..] == z;
      }
    } else {
      assert (x + z)[1..] == x[1..] + z;
      CollapseAfterOther(x[1..], z);
    }
  }

  /** A leading run of underscores, however long, becomes exactly one. */
  lemma {:induction false} CollapseRun(n: nat, y: string)
    requires n >= 1 && (y == [] || y[0] != '_')
    ensures CollapseUnderscores(Underscores(n) + y) == "_" + CollapseUnderscores(y)
  {
    var s := Underscores(n) + y;
    if n == 1 {
      if y != [] {
        assert s[0] == '_' && s[1] == y[0] && s[1..] == y;
      }
    } else {
      assert s[0] == '_' && s[1] == '_';
      assert s[1..] == Underscores(n - 1) + y;
      CollapseRun(n - 1, y);
    }
  }

  /** Two pieces joined by a run of underscores come out joined by exactly one underscore. */
  lemma {:induction false} CollapseJoin(x: string, n: nat, y: string)
    requires x == [] || x[|x| - 1] != '_'
    requires n >= 1 && (y == [] || y[0] != '_')
    ensures CollapseUnderscores(x + Underscores(n) + y) == CollapseUnderscores(x) + "_" + CollapseUnderscores(y)
  {
    var u := Underscores(n) + y;
    assert x + Underscores(n) + y == x + u;
    assert CollapseUnderscores(u) == "_" + CollapseUnderscores(y) by {
      CollapseRun(n, y);
    }
    if x != [] {
      assert CollapseUnderscores(x + u) == CollapseUnderscores(x) + CollapseUnderscores(u) by {
        CollapseAfterOther(x, u);
      }
    } else {
      assert x + u == u;
    }
  }

  lemma SpacesAppend(x: string, y: string)
    ensures SpacesToUnderscores(x + y) == SpacesToUnderscores(x) + SpacesToUnderscores(y)
  {
    var l, r := SpacesToUnderscores(x + y), SpacesToUnderscores(x) + SpacesToUnderscores(y);
    assert forall i :: 0 <= i < |l| ==> l[i] == r[i] by {
      forall i | 0 <= i < |l|
        ensures l[i] == r[i]
      {
        if i < |x| {
          assert (x + y)[i] == x[i];
        } else {
          assert (x + y)[i] == y[i - |x|];
        }
      }
    }
  }

  /**
   * Two words separated by any mix of spaces and underscores are normalised
   * separately and joined by exactly one underscore (the pieces hold only
   * characters the first pass keeps, and `_` is a word character, as for `\w`).
   */
  lemma NormalizeJoin(a: string, w: string, b: string, isWord: char -> bool)
    requires isWord('_')
    requires forall c :: c in a ==> isWord(c) || IsSpace(c)
    requires forall c :: c in b ==> isWord(c) || IsSpace(c)
    requires w != [] && forall c :: c in w ==> c == ' ' || c == '_'
    requires a == [] || (a[|a| - 1] != ' ' && a[|a| - 1] != '_')
    requires b == [] || (b[0] != ' ' && b[0] != '_')
    ensures NormalizeFilename(a + w + b, isWord) == NormalizeFilename(a, isWord) + "_" + NormalizeFilename(b, isWord)
  {
    var sa, sw, sb := SpacesToUnderscores(a), SpacesToUnderscores(w), SpacesToUnderscores(b);
    assert KeepWordsAndSpaces(a + w + b, isWord) == a + w + b by {
      assert IsSpace(' ');
      assert forall c :: c in a + w + b ==> c in a || c in w || c in b;
      KeepWordsAndSpacesKeepsAll(a + w + b, isWord);
    }
    assert KeepWordsAndSpaces(a, isWord) == a by {
      KeepWordsAndSpacesKeepsAll(a, isWord);
    }
    assert KeepWordsAndSpaces(b, isWord) == b by {
      KeepWordsAndSpacesKeepsAll(b, isWord);
    }
    assert SpacesToUnderscores(a + w + b) == sa + Underscores(|w|) + sb by {
      SpacesAppend(a + w, b);
      SpacesAppend(a, w);
      forall i | 0 <= i < |w|
        ensures sw[i] == '_'
      {
        assert w[i] in w;
      }
      assert sw == Underscores(|w|);
    }
    CollapseJoin(sa, |w|, sb);
  }

  /** Normalising a normalised name changes nothing, given that `_` is a word character, as it is for `\w`. */
  lemma NormalizeIdempotent(title: string, isWord: char -> bool)
    requires isWord('_')
    ensures NormalizeFilename(NormalizeFilename(title, isWord), isWord) == NormalizeFilename(title, isWord)
  {
    var n := NormalizeFilename(title, isWord);
    NormalizeSpec(title, isWord);
    KeepWordsAndSpacesKeepsAll(n, isWord);
    assert SpacesToUnderscores(n) == n;
    CollapseSpec(n);
  }

  // ---------------------------------------------------------------------------
  // find_actual_file
  // ---------------------------------------------------------------------------

  /** The full-width vertical line yt-dlp writes in place of `|`. */
  const FullWidthPipe: char := '\U{FF5C}'

  function LastIndexOf(s: string, c: char): (r: Option<nat>)
    ensures r.None? ==> c !in s
    ensures r.Some? ==> r.value < |s| && s[r.value] == c && c !in s[r.value + 1..]
  {
    if s == [] then None
    else if s[|s| - 1] == c then Some(|s| - 1)
    else
      var r := LastIndexOf(s[..|s| - 1], c);
      assert forall k :: 0 <= k < |s| - 1 ==> s[..|s| - 1][k] == s[k];
      r
  }

  /** `os.path.basename`: the text after the last `/`. */
  function Basename(p: string): string {
    match LastIndexOf(p, '/')
    case None => p
    case Some(i) => p[i + 1..]
  }

  /** `os.path.dirname` of a relative path without repeated slashes: the text before the last `/`. */
  function Dirname(p: string): string {
    match LastIndexOf(p, '/')
    case None => ""
    case Some(i) => p[..i]
  }

  /** A path is its directory, a slash, and its base name, and the base name holds no slash. */
  lemma SplitPath(p: string)
    ensures '/' !in Basename(p)
    ensures '/' in p ==> p == Dirname(p) + "/" + Basename(p)
    ensures '/' !in p ==> Dirname(p) == "" && Basename(p) == p
  {
  }

  /** `os.path.join` of two relative parts, as `relpath` reports the result. */
  function Join(dir: string, name: string): string {
    if dir == "" then name else dir + "/" + name
  }

  /** The disk as the application sees it: the entries of each directory in listing order, and the set of existing paths. */
  datatype Disk = Disk(listing: map<string, seq<string>>, present: set<string>)

  /** The entries a `*` glob in the directory returns: those not starting with a dot, in listing order. */
  function Visible(entries: seq<string>): (r: seq<string>)
    ensures forall e :: e in r <==> e in entries && (e == [] || e[0] != '.')
  {
    if entries == [] then []
    else (if entries[0] == [] || entries[0][0] != '.' then [entries[0]] else []) + Visible(entries[1..])
  }

  function ReplacePipe(name: string): (r: string)
    ensures |r| == |name|
  {
    seq(|name|, i requires 0 <= i < |name| => if name[i] == FullWidthPipe then '|' else name[i])
  }

  /** The first entry that equals `base` once its full-width pipes are read as `|`. */
  function FirstMatch(entries: seq<string>, base: string): (r: Option<nat>)
    ensures r.Some? ==> r.value < |entries| && ReplacePipe(entries[r.value]) == base &&
                        forall j :: 0 <= j < r.value ==> ReplacePipe(entries[j]) != base
    ensures r.None? ==> forall j :: 0 <= j < |entries| ==> ReplacePipe(entries[j]) != base
  {
    if entries == [] then None
    else if ReplacePipe(entries[0]) == base then Some(0)
    else
      match FirstMatch(entries[1..], base)
      case None => None
      case Some(j) => Some(j + 1)
  }

  function Listing(disk: Disk, dir: string): seq<string> {
    Visible(if dir in disk.listing then disk.listing[dir] else [])
  }

  /** The stored name as it is actually spelled on disk, or the stored name itself when no entry matches. */
  function FindActualFile(disk: Disk, filename: string): string {
    var entries := Listing(disk, Dirname(filename));
    match FirstMatch(entries, Basename(filename))
    case None => filename
    case Some(j) => Join(Dirname(filename), entries[j])
  }

  /**
   * The lookup returns the first visible entry of the file's directory whose
   * name, read with `|` for the full-width pipe, is the stored base name; when
   * there is none it returns the stored name unchanged.
   */
  lemma FindActualFileSpec(disk: Disk, filename: string)
    ensures var entries := Listing(disk, Dirname(filename));
      (forall e :: e in entries ==> ReplacePipe(e) != Basename(filename)) ==> FindActualFile(disk, filename) == filename
    ensures var entries := Listing(disk, Dirname(filename));
      (exists e :: e in entries && ReplacePipe(e) == Basename(filename)) ==>
        exists j :: 0 <= j < |entries| && ReplacePipe(entries[j]) == Basename(filename) &&
          FindActualFile(disk, filename) == Join(Dirname(filename), entries[j]) &&
          forall k :: 0 <= k < j ==> ReplacePipe(entries[k]) != Basename(filename)
  {
  }

  /** Reading full-width pipes as `|` maps a name onto a `|`-free name only when the two are equal. */
  lemma ReplacePipeFixes(e: string, base: string)
    requires ReplacePipe(e) == base && '|' !in base
    ensures e == base
  {
    forall i | 0 <= i < |e|
      ensures e[i] == base[i]
    {
      assert ReplacePipe(e)[i] == base[i];
      assert base[i] in base;
    }
  }

  /** A name without `|` can only resolve to itself: its own directory joined with its own base name. */
  lemma NoPipeResolvesToItself(disk: Disk, filename: string)
    requires '|' !in Basename(filename)
    ensures FindActualFile(disk, filename) == filename || FindActualFile(disk, filename) == Join(Dirname(filename), Basename(filename))
  {
    var entries := Listing(disk, Dirname(filename));
    match FirstMatch(entries, Basename(filename))
    case None =>
    case Some(j) =>
      ReplacePipeFixes(entries[j], Basename(filename));
  }

  // ---------------------------------------------------------------------------
  // allowed_file
  // ---------------------------------------------------------------------------

  const AllowedExtensions: set<string> := {"mp3", "wav", "ogg"}

  /** The text after the last dot, if there is a dot. */
  function Extension(filename: string): Option<string> {
    match LastIndexOf(filename, '.')
    case None => None
    case Some(i) => Some(filename[i + 1..])
  }

  /** An upload is accepted when its name has a dot and the extension after the last one is mp3, wav or ogg in any case. */
  predicate AllowedFile(filename: string) {
    Extension(filename).Some? && Text.Lower(Extension(filename).value) in AllowedExtensions
  }

  /** Accepted exactly when the name splits at a dot into a stem and a dot-free allowed extension. */
  lemma AllowedFileIff(filename: string)
    ensures AllowedFile(filename) <==>
      exists i :: 0 <= i < |filename| && filename[i] == '.' && '.' !in filename[i + 1..] &&
                  Text.Lower(filename[i + 1..]) in AllowedExtensions
  {
    if exists i :: 0 <= i < |filename| && filename[i] == '.' && '.' !in filename[i + 1..] &&
                   Text.Lower(filename[i + 1..]) in AllowedExtensions {
      var i :| 0 <= i < |filename| && filename[i] == '.' && '.' !in filename[i + 1..] &&
               Text.Lower(filename[i + 1..]) in AllowedExtensions;
      var j := LastIndexOf(filename, '.').value;
      NoDotAfter(filename, i);
      NoDotAfter(filename, j);
      assert i == j;
    }
  }

  /** A name ending in a dot and a dot-free extension is accepted exactly when the lower-cased extension is allowed. */
  lemma AllowedEnding(stem: string, ext: string)
    requires '.' !in ext
    ensures AllowedFile(stem + "." + ext) <==> Text.Lower(ext) in AllowedExtensions
  {
    ExtensionOfSuffix(stem, ext);
  }

  /** Lower-casing maps `WAV` to the allowed `wav` and leaves the refused `txt` alone. */
  lemma LowerExamples()
    ensures Text.Lower("WAV") in AllowedExtensions
    ensures Text.Lower("txt") !in AllowedExtensions
  {
    assert Text.Lower("WAV") == "wav";
    assert Text.Lower("txt") == "txt";
  }

  /** Whatever the stem, an upper-case `.WAV` ending is accepted and a `.txt` ending is refused, even after `.mp3`. */
  lemma AllowedFileExamples(stem: string)
    ensures AllowedFile(stem + "." + "WAV")
    ensures !AllowedFile(stem + ".mp3" + "." + "txt")
  {
    LowerExamples();
    AllowedEnding(stem, "WAV");
    AllowedEnding(stem + ".mp3", "txt");
  }

  /** When `f[i]` is the last dot, no later character is a dot. */
  lemma NoDotAfter(f: string, i: nat)
    requires i < |f| && '.' !in f[i + 1..]
    ensures forall k :: i < k < |f| ==> f[k] != '.'
  {
    forall k | i < k < |f|
      ensures f[k] != '.'
    {
      assert f[k] == f[i + 1..][k - i - 1];
    }
  }

  lemma ExtensionOfSuffix(stem: string, ext: string)
    requires '.' !in ext
    ensures Extension(stem + "." + ext) == Some(ext)
  {
    var f := stem + "." + ext;
    assert f[|stem|] == '.';
    assert f[|stem| + 1..] == ext;
    var j := LastIndexOf(f, '.').value;
    NoDotAfter(f, j);
    assert '.' !in f[|stem| + 1..];
    NoDotAfter(f, |stem|);
    assert j == |stem|;
  }

  // ---------------------------------------------------------------------------
  // is_playlist_url
  // ---------------------------------------------------------------------------

  const PlaylistIndicators: seq<string> := ["playlist?list=", "&list=", "/playlist/", "music.youtube.com/playlist"]

  /** A URL is treated as a playlist when it contains any of the indicator substrings. */
  predicate IsPlaylistUrl(url: string) {
    exists k :: 0 <= k < |PlaylistIndicators| && Text.Contains(url, PlaylistIndicators[k])
  }

  /** Any URL built around an indicator is a playlist URL. */
  lemma IndicatorMakesPlaylist(before: string, k: nat, after: string)
    requires k < |PlaylistIndicators|
    ensures IsPlaylistUrl(before + PlaylistIndicators[k] + after)
  {
    var ind := PlaylistIndicators[k];
    assert Text.OccursAt(ind, ind, 0);
    Text.ContainsExtended(ind, ind, before, after);
  }

  /** Text around a playlist URL keeps it a playlist URL. */
  lemma PlaylistUrlExtended(url: string, before: string, after: string)
    requires IsPlaylistUrl(url)
    ensures IsPlaylistUrl(before + url + after)
  {
    var k :| 0 <= k < |PlaylistIndicators| && Text.Contains(url, PlaylistIndicators[k]);
    Text.ContainsExtended(url, PlaylistIndicators[k], before, after);
  }

  lemma ContainsTransitive(s: string, mid: string, sub: string)
    requires Text.Contains(s, mid) && Text.Contains(mid, sub)
    ensures Text.Contains(s, sub)
  {
    var i :| 0 <= i <= |s| && Text.OccursAt(s, mid, i);
    var j :| 0 <= j <= |mid| && Text.OccursAt(mid, sub, j);
    assert forall k :: 0 <= k < |sub| ==> s[i + j + k] == s[i..i + |mid|][j + k] == mid[j + k] == sub[k];
    assert s[i + j..i + j + |sub|] == sub;
    assert Text.OccursAt(s, sub, i + j);
  }

  /** Every indicator contains `list`, so a URL without `list` is never a playlist URL. */
  lemma NoListNoPlaylist(url: string)
    requires !Text.Contains(url, "list")
    ensures !IsPlaylistUrl(url)
  {
    assert Text.OccursAt(PlaylistIndicators[0], "list", 4);
    assert Text.OccursAt(PlaylistIndicators[1], "list", 1);
    assert Text.OccursAt(PlaylistIndicators[2], "list", 5);
    assert Text.OccursAt(PlaylistIndicators[3], "list", 22);
    forall k | 0 <= k < |PlaylistIndicators|
      ensures !Text.Contains(url, PlaylistIndicators[k])
    {
      if Text.Contains(url, PlaylistIndicators[k]) {
        ContainsTransitive(url, PlaylistIndicators[k], "list");
      }
    }
  }
}

=== FILE: frontend_utils.dfy ===
/**
 * The interface's formatting helpers: the `m:ss` rendering of a duration in
 * seconds, and the short names and Vietnamese labels of the weekdays shown on
 * the schedule form. The duration arrives as a JavaScript number, modelled as
 * an optional real where `None` stands for NaN.
 */
module FrontendUtils {
  import opened Wrappers
  import Text
  import Scheduling

  /** JavaScript's `%` on numbers: the remainder takes the sign of the dividend. */
  function JsRem(x: real, y: real): real
    requires y != 0.0
  {
    x - y * Text.Truncate(x / y) as real
  }

  /** The `${mins}:${secs.toString().padStart(2, '0')}` template. */
  function Display(mins: int, secs: int): string {
    Text.IntToString(mins) + ":" + Text.PadStart(Text.IntToString(secs), 2, '0')
  }

  /** `formatDuration`: zero and NaN give "0:00"; any other number is formatted by `FormatSeconds`. */
  function FormatDuration(seconds: Option<real>): string {
    if seconds.None? then "0:00" else FormatSeconds(seconds.value)
  }

  /** A number that is not NaN: zero gives "0:00"; otherwise the floored minutes, a colon and the floored remainder padded to two places. */
  function FormatSeconds(s: real): string {
    if s == 0.0 then "0:00" else Display(MinutesField(s), SecondsField(s))
  }

  /** `Math.floor(seconds / 60)`. */
  function MinutesField(s: real): int {
    (s / 60.0).Floor
  }

  /** `Math.floor(seconds % 60)`. */
  function SecondsField(s: real): int {
    JsRem(s, 60.0).Floor
  }

  /** Zero and NaN both show as "0:00". */
  lemma FormatDurationZero()
    ensures FormatDuration(None) == "0:00" && FormatDuration(Some(0.0)) == "0:00"
  {
  }

  /** Reads an `m:ss` display back into seconds: exactly one colon with an integer on each side. */
  function ParseDuration(t: string): (r: Option<int>)
    ensures r.Some? ==> |Text.Split(t, ':')| == 2
  {
    var parts := Text.Split(t, ':');
    if |parts| != 2 then None
    else match (Text.ParseInt(parts[0]), Text.ParseInt(parts[1]))
      case (Some(m), Some(s)) => Some(m * 60 + s)
      case _ => None
  }

  lemma ShortNumber(k: nat)
    requires k < 100
    ensures |Text.NatToString(k)| <= 2
  {
    if k >= 10 {
      assert Text.NatToString(k) == Text.NatToString(k / 10) + [Text.DigitChar(k % 10)];
    }
  }

  /** On whole non-negative seconds, JavaScript's floor of the quotient and remainder are integer division and modulus. */
  lemma WholeDivision(s: nat)
    ensures MinutesField(s as real) == s / 60
    ensures SecondsField(s as real) == s % 60
  {
    var q, r := s / 60, s % 60;
    var x := s as real;
    assert x / 60.0 == q as real + r as real / 60.0;
    assert Text.Truncate(x / 60.0) == q;
    assert JsRem(x, 60.0) == r as real;
  }

  /** Zero seconds, shown through the template, read "0:00" as the early return gives. */
  lemma ZeroDisplay()
    ensures Display(0, 0) == "0:00"
  {
    assert Text.IntToString(0) == "0";
    assert Text.PadStart("0", 2, '0') == "00";
  }

  /** A number other than NaN is formatted by `FormatSeconds`: zero as "0:00", any other through the template. */
  lemma NumberShown(x: real)
    ensures FormatDuration(Some(x)) == FormatSeconds(x)
    ensures x == 0.0 ==> FormatSeconds(x) == "0:00"
    ensures x != 0.0 ==> FormatSeconds(x) == Display(MinutesField(x), SecondsField(x))
  {
  }

  /** A whole non-negative number of seconds renders as its minutes and its seconds below 60 through the template. */
  lemma WholeSeconds(s: nat)
    ensures FormatDuration(Some(s as real)) == Display(s / 60, s % 60)
  {
    NumberShown(s as real);
    if s > 0 {
      WholeDivision(s);
    } else {
      assert s / 60 == 0 && s % 60 == 0;
      ZeroDisplay();
    }
  }

  /** On non-negative fields the template is the minutes, a colon and the seconds padded to two places. */
  lemma DisplayParts(q: nat, r: nat)
    ensures Display(q, r) == Text.NatToString(q) + [':'] + Text.PadStart(Text.NatToString(r), 2, '0')
  {
    assert Text.IntToString(q) == Text.NatToString(q);
    assert Text.IntToString(r) == Text.NatToString(r);
  }

  /** Two digit strings joined by a colon read back as the first's value times 60 plus the second's. */
  lemma ParseJoined(a: string, b: string, m: nat, sec: nat)
    requires a != [] && Text.AllDigits(a) && Text.DigitsValue(a) == m
    requires b != [] && Text.AllDigits(b) && Text.DigitsValue(b) == sec
    ensures ParseDuration(a + [':'] + b) == Some(m * 60 + sec)
  {
    Text.DigitsFree(a, ':');
    Text.DigitsFree(b, ':');
    Text.SplitTwo(a, ':', b);
    Text.ParseDigits(a);
    Text.ParseDigits(b);
  }

  /** The template splits at its colon into the minutes and the padded seconds. */
  lemma DisplaySplit(q: nat, r: nat)
    ensures Text.Split(Display(q, r), ':') == [Text.NatToString(q), Text.PadStart(Text.NatToString(r), 2, '0')]
  {
    var a := Text.NatToString(q);
    var b := Text.PadStart(Text.NatToString(r), 2, '0');
    DisplayParts(q, r);
    Text.ZeroPadValue(Text.NatToString(r), 2);
    Text.DigitsFree(a, ':');
    Text.DigitsFree(b, ':');
    Text.SplitTwo(a, ':', b);
  }

  /** Seconds below 60 pad to exactly two digits worth them. */
  lemma PaddedSeconds(r: nat)
    requires r < 60
    ensures var b := Text.PadStart(Text.NatToString(r), 2, '0');
      |b| == 2 && Text.AllDigits(b) && Text.DigitsValue(b) == r
  {
    ShortNumber(r);
    Text.ZeroPadValue(Text.NatToString(r), 2);
    Text.DigitsRoundTrip(r);
  }

  /** The template on whole minutes and seconds below 60: the minutes, a colon, and two digits worth the seconds. */
  lemma DisplayShape(q: nat, r: nat)
    requires r < 60
    ensures var parts := Text.Split(Display(q, r), ':');
      |parts| == 2 && parts[0] == Text.NatToString(q) &&
      |parts[1]| == 2 && Text.AllDigits(parts[1]) && Text.DigitsValue(parts[1]) == r
  {
    var b := Text.PadStart(Text.NatToString(r), 2, '0');
    DisplaySplit(q, r);
    var parts := Text.Split(Display(q, r), ':');
    assert parts[1] == b;
    PaddedSeconds(r);
  }

  /** The rendered fields of non-negative minutes and seconds: non-empty digit strings worth them. */
  lemma DisplayFields(q: nat, r: nat)
    ensures var a := Text.NatToString(q); var b := Text.PadStart(Text.NatToString(r), 2, '0');
      a != [] && Text.AllDigits(a) && Text.DigitsValue(a) == q &&
      b != [] && Text.AllDigits(b) && Text.DigitsValue(b) == r
  {
    Text.ZeroPadValue(Text.NatToString(r), 2);
    Text.DigitsRoundTrip(q);
    Text.DigitsRoundTrip(r);
  }

  /** Reading the template on non-negative fields back gives minutes * 60 + seconds. */
  lemma DisplayRoundTrip(q: nat, r: nat)
    ensures ParseDuration(Display(q, r)) == Some(q * 60 + r)
  {
    var a := Text.NatToString(q);
    var b := Text.PadStart(Text.NatToString(r), 2, '0');
    DisplayFields(q, r);
    ParseJoined(a, b, q, r);
    DisplayParts(q, r);
  }

  /** The `formatDuration` shape: minutes, then a two-digit field that reads back as the seconds modulo 60. */
  lemma FormatDurationShape(s: nat)
    ensures var parts := Text.Split(FormatDuration(Some(s as real)), ':');
      |parts| == 2 && parts[0] == Text.NatToString(s / 60) &&
      |parts[1]| == 2 && Text.AllDigits(parts[1]) &&
      Text.DigitsValue(parts[1]) == s % 60 < 60
  {
    WholeSeconds(s);
    DisplayShape(s / 60, s % 60);
  }

  /** Reading the display of a whole non-negative duration back gives minutes * 60 + seconds = the duration. */
  lemma FormatDurationRoundTrip(s: nat)
    ensures ParseDuration(FormatDuration(Some(s as real))) == Some(s)
  {
    var q, r := s / 60, s % 60;
    assert q * 60 + r == s;
    WholeSeconds(s);
    DisplayRoundTrip(q, r);
  }

  /** For a non-negative duration the quotient and remainder by 60 depend only on its whole seconds. */
  lemma FractionalDivision(x: real)
    requires x >= 0.0
    ensures MinutesField(x) == x.Floor / 60
    ensures SecondsField(x) == x.Floor % 60
  {
    var n := x.Floor;
    var q, r := n / 60, n % 60;
    var f := x - n as real;
    assert x / 60.0 == q as real + (r as real + f) / 60.0;
    assert (x / 60.0).Floor == q;
    assert Text.Truncate(x / 60.0) == q;
    assert JsRem(x, 60.0) == r as real + f;
  }

  /** A positive duration renders through the template with the quotient and remainder of its whole seconds. */
  lemma PositiveFloors(x: real)
    requires x > 0.0
    ensures FormatDuration(Some(x)) == Display(x.Floor / 60, x.Floor % 60)
  {
    NumberShown(x);
    FractionalDivision(x);
  }

  /** Fractions of a second never show: a non-negative duration displays as its whole seconds. */
  lemma FormatDurationFloors(x: real)
    requires x >= 0.0
    ensures FormatDuration(Some(x)) == FormatDuration(Some(x.Floor as real))
  {
    if x > 0.0 {
      PositiveFloors(x);
      WholeSeconds(x.Floor);
    } else {
      assert x == x.Floor as real;
    }
  }

  /** JavaScript's floor and remainder on -5 seconds: minute -1, second -5. */
  lemma NegativeFields()
    ensures MinutesField(-5.0) == -1 && SecondsField(-5.0) == -5
  {
    assert Text.Truncate(-5.0 / 60.0) == 0;
    assert JsRem(-5.0, 60.0) == -5.0;
  }

  /** A negative duration shows both fields negative, the seconds unpadded: -5 renders as "-1:-5". */
  lemma NegativeDuration()
    ensures FormatDuration(Some(-5.0)) == "-1:-5"
  {
    NegativeFields();
    assert FormatDuration(Some(-5.0)) == Display(-1, -5);
    assert Text.IntToString(-1) == "-1" && Text.IntToString(-5) == "-5";
    assert Text.PadStart("-5", 2, '0') == "-5";
  }

  /** `WEEKDAYS`: the lower-case weekday names, Monday first. */
  const Weekdays: seq<string> := ["monday", "tuesday", "wednesday", "thursday", "friday", "saturday", "sunday"]

  /** The interface lists the days in the same order, and under the same names, as the server's schedule columns. */
  lemma WeekdaysDistinct()
    ensures |Weekdays| == 7
    ensures forall i, j :: 0 <= i < j < |Weekdays| ==> Weekdays[i] != Weekdays[j]
    ensures Weekdays == Scheduling.DayNames
  {
    forall i, j | 0 <= i < j < |Weekdays|
      ensures Weekdays[i] != Weekdays[j]
    {
      assert Weekdays[i][..2] == ["mo", "tu", "we", "th", "fr", "sa", "su"][i];
      assert Weekdays[j][..2] == ["mo", "tu", "we", "th", "fr", "sa", "su"][j];
    }
  }

  const ShortNames: map<string, string> := map[
    "monday" := "Mon", "tuesday" := "Tue", "wednesday" := "Wed", "thursday" := "Thu",
    "friday" := "Fri", "saturday" := "Sat", "sunday" := "Sun"]

  const Labels: map<string, string> := map[
    "monday" := "T2", "tuesday" := "T3", "wednesday" := "T4", "thursday" := "T5",
    "friday" := "T6", "saturday" := "T7", "sunday" := "CN"]

  /** `map[day] || day`: the mapped text, or the argument itself when the key is missing or maps to an empty string. */
  function Lookup(names: map<string, string>, day: string): (r: string)
    ensures day !in names ==> r == day
    ensures day in names && names[day] != "" ==> r == names[day]
  {
    if day in names && names[day] != "" then names[day] else day
  }

  /** `getWeekdayShort`. */
  function WeekdayShort(day: string): (r: string)
    ensures day !in Weekdays ==> r == day
  {
    Lookup(ShortNames, day)
  }

  /** `getWeekdayLabel`. */
  function WeekdayLabel(day: string): (r: string)
    ensures day !in Weekdays ==> r == day
  {
    Lookup(Labels, day)
  }

  /** ASCII upper-casing of one letter. */
  function UpperChar(c: char): char {
    if 'a' <= c <= 'z' then (c as int - 32) as char else c
  }

  /** The short name of a day is its first three letters with the first one capitalised. */
  predicate ShortRule(d: string) {
    |d| >= 3 && WeekdayShort(d) == [UpperChar(d[0])] + d[1..3]
  }

  /** A day whose table entry is its capitalised three-letter prefix follows the rule. */
  lemma ShortEntry(d: string, short: string)
    requires d in ShortNames && ShortNames[d] == short
    requires |d| >= 3 && short == [UpperChar(d[0])] + d[1..3]
    ensures ShortRule(d)
  {
  }

  /** Each weekday in turn follows the rule. */
  lemma ShortAt(i: nat)
    requires i < |Weekdays|
    ensures ShortRule(Weekdays[i])
  {
    assert UpperChar('m') == 'M' && UpperChar('t') == 'T' && UpperChar('w') == 'W';
    assert UpperChar('f') == 'F' && UpperChar('s') == 'S';
    if i == 0 {
      ShortEntry("monday", "Mon");
    } else if i == 1 {
      ShortEntry("tuesday", "Tue");
    } else if i == 2 {
      ShortEntry("wednesday", "Wed");
    } else if i == 3 {
      ShortEntry("thursday", "Thu");
    } else if i == 4 {
      ShortEntry("friday", "Fri");
    } else if i == 5 {
      ShortEntry("saturday", "Sat");
    } else {
      ShortEntry("sunday", "Sun");
    }
  }

  /** The short name of each weekday is its first three letters with the first one capitalised. */
  lemma WeekdayShortSpec()
    ensures forall d :: d in Weekdays ==> ShortRule(d)
  {
    forall d | d in Weekdays
      ensures ShortRule(d)
    {
      var i :| 0 <= i < |Weekdays| && Weekdays[i] == d;
      ShortAt(i);
    }
  }

  /** Monday to Saturday are labelled by their number in the Vietnamese week, "T2" to "T7"; Sunday is "CN". */
  lemma WeekdayLabelSpec()
    ensures forall i :: 0 <= i < 6 ==> WeekdayLabel(Weekdays[i]) == "T" + Text.NatToString(i + 2)
    ensures WeekdayLabel(Weekdays[6]) == "CN"
  {
    forall i | 0 <= i < 6
      ensures WeekdayLabel(Weekdays[i]) == "T" + Text.NatToString(i + 2)
    {
      assert Text.NatToString(i + 2) == [Text.DigitChar(i + 2)];
    }
  }

  /** No two weekdays share a label, and no label is itself a weekday name, so a label always tells its day apart. */
  lemma WeekdayLabelInjective()
    ensures forall i, j :: 0 <= i < |Weekdays| && 0 <= j < |Weekdays| && WeekdayLabel(Weekdays[i]) == WeekdayLabel(Weekdays[j]) ==> i == j
    ensures forall d :: d in Weekdays ==> WeekdayLabel(d) !in Weekdays
  {
    WeekdayLabelSpec();
    forall i, j | 0 <= i < |Weekdays| && 0 <= j < |Weekdays| && WeekdayLabel(Weekdays[i]) == WeekdayLabel(Weekdays[j])
      ensures i == j
    {
      if i < 6 && j < 6 {
        assert WeekdayLabel(Weekdays[i])[1] == Text.DigitChar(i + 2);
        assert WeekdayLabel(Weekdays[j])[1] == Text.DigitChar(j + 2);
      }
    }
  }
}

=== FILE: lex.dfy ===
/**
 * Lexicographic order on integer sequences. Every sort in the model compares
 * sort keys written as integer vectors, and strings compare by code point
 * (Python's `<` on `str`, SQLite's BINARY collation), so this one order serves all.
 */
module Lex {

  /** `a` sorts strictly before `b`: first differing element smaller, or `a` a proper prefix of `b`. */
  predicate Less(a: seq<int>, b: seq<int>)
    decreases |a|
  {
    |b| > 0 && (|a| == 0 || a[0] < b[0] || (a[0] == b[0] && Less(a[1..], b[1..])))
  }

  /** `a` does not sort after `b`. */
  predicate LessOrEqual(a: seq<int>, b: seq<int>) {
    !Less(b, a)
  }

  lemma {:induction false} Irreflexive(a: seq<int>)
    ensures !Less(a, a)
  {
    if |a| > 0 {
      Irreflexive(a[1..]);
    }
  }

  lemma {:induction false} Asymmetric(a: seq<int>, b: seq<int>)
    requires Less(a, b)
    ensures !Less(b, a)
  {
    if |a| > 0 && a[0] == b[0] {
      Asymmetric(a[1..], b[1..]);
    }
  }

  lemma {:induction false} Transitive(a: seq<int>, b: seq<int>, c: seq<int>)
    requires Less(a, b) && Less(b, c)
    ensures Less(a, c)
  {
    if |a| > 0 && a[0] == b[0] && b[0] == c[0] {
      Transitive(a[1..], b[1..], c[1..]);
    }
  }

  lemma {:induction false} Total(a: seq<int>, b: seq<int>)
    requires a != b
    ensures Less(a, b) || Less(b, a)
  {
    if |a| > 0 && |b| > 0 && a[0] == b[0] {
      assert a == [a[0]] + a[1..] && b == [b[0]] + b[1..];
      Total(a[1..], b[1..]);
    }
  }

  /** "Does not sort after" is transitive: the non-strict order is a total preorder. */
  lemma LessOrEqualTransitive(a: seq<int>, b: seq<int>, c: seq<int>)
    requires LessOrEqual(a, b) && LessOrEqual(b, c)
    ensures LessOrEqual(a, c)
  {
    if Less(c, a) {
      if a == b {
      } else {
        Total(a, b);
        Transitive(c, a, b);
      }
    }
  }

  /** Comparing two keys that share a first part is decided by the rest. */
  lemma {:induction false} AppendRight(p: seq<int>, a: seq<int>, b: seq<int>)
    ensures Less(p + a, p + b) <==> Less(a, b)
  {
    if |p| > 0 {
      assert (p + a)[1..] == p[1..] + a;
      assert (p + b)[1..] == p[1..] + b;
      AppendRight(p[1..], a, b);
    } else {
      assert p + a == a && p + b == b;
    }
  }

  /** Comparing concatenations whose first parts have equal length: the first parts decide unless they are equal. */
  lemma {:induction false} ConcatLess(p: seq<int>, q: seq<int>, r: seq<int>, s: seq<int>)
    requires |p| == |r|
    ensures Less(p + q, r + s) <==> Less(p, r) || (p == r && Less(q, s))
  {
    if |p| > 0 {
      assert (p + q)[1..] == p[1..] + q;
      assert (r + s)[1..] == r[1..] + s;
      ConcatLess(p[1..], q, r[1..], s);
      assert p == r <==> p[0] == r[0] && p[1..] == r[1..];
    } else {
      assert p + q == q && r + s == s;
    }
  }

  /** Two-element keys compare on their first element, then on their second. */
  lemma PairLess(a: int, b: int, c: int, d: int)
    ensures Less([a, b], [c, d]) <==> a < c || (a == c && b < d)
  {
    assert [b][1..] == [] && [d][1..] == [];
    assert !Less([], []);
    assert Less([b], [d]) <==> b < d;
    assert [a, b][1..] == [b] && [c, d][1..] == [d];
  }

  lemma {:induction false} ExtendKeepsLess(a: seq<int>, b: seq<int>, x: seq<int>, y: seq<int>)
    requires |a| == |b| && Less(a, b)
    ensures Less(a + x, b + y)
  {
    if a[0] == b[0] {
      assert (a + x)[1..] == a[1..] + x;
      assert (b + y)[1..] == b[1..] + y;
      ExtendKeepsLess(a[1..], b[1..], x, y);
    }
  }
}

=== FILE: playback.dfy ===
/**
 * The playback state machine: the five playback globals, the polling step
 * that detects the end of a track, and the handlers that play, pause,
 * resume, stop, change the volume and delete songs.
 *
 * The audio device is abstracted to a `Reading`: whether it is busy and how
 * many milliseconds of the current track it has played (negative when it
 * has no position). A handler that looks at the device and then broadcasts
 * takes two readings: the one it branches on and the one the trailing
 * broadcast sees. Handlers report the device operations they issue.
 */
module Playback {
  import opened Wrappers
  import Catalog
  import Files
  import Lex
  import Text

  const DefaultVolume: real := 0.5

  /** `current_song_id`, `current_song_duration`, `is_playing`, `current_position` (seconds) and `volume` (0..1). */
  datatype State = State(currentSongId: Option<int>, duration: int, isPlaying: bool, position: real, volume: real)

  const Initial: State := State(None, 0, false, 0.0, DefaultVolume)

  /** The state every handler preserves. */
  predicate Inv(s: State) {
    0.0 <= s.volume <= 1.0 && s.position >= 0.0 && s.duration >= 0 &&
    (s.isPlaying ==> s.currentSongId.Some?)
  }

  /** Python truthiness of `current_song_id`: set and non-zero. */
  predicate Loaded(s: State) {
    s.currentSongId.Some? && s.currentSongId.value != 0
  }

  /** The state with no song loaded; the volume is kept. */
  function Cleared(s: State): State {
    s.(currentSongId := None, duration := 0, isPlaying := false, position := 0.0)
  }

  datatype Reading = Reading(busy: bool, elapsedMs: int)

  datatype DeviceOp = StopOp | PauseOp | UnpauseOp | LoadOp(path: string) | PlayOp | SetVolumeOp(level: real)

  /** The socket events the model keeps: the end of a track and the periodic state update. */
  datatype Event =
    | SongFinished
    | PlaybackUpdate(position: real, duration: int, isPlaying: bool, volume: real, currentSongId: Option<int>)

  datatype Step = Step(state: State, ops: seq<DeviceOp>, events: seq<Event>)

  // ---------------------------------------------------------------------------
  // broadcast_playback_state
  // ---------------------------------------------------------------------------

  /** A track is over when the device went idle while a loaded song was playing. */
  predicate Finishes(s: State, r: Reading) {
    !r.busy && s.isPlaying && Loaded(s)
  }

  function PollState(s: State, r: Reading): State {
    if r.busy && Loaded(s) then
      (if r.elapsedMs >= 0 then s.(position := r.elapsedMs as real / 1000.0) else s)
    else if Finishes(s, r) then Cleared(s)
    else s
  }

  /** One broadcast: refresh the position or detect the end of the track, then report the state, with the device's own busy flag as `isPlaying`. */
  function Broadcast(s: State, r: Reading): Step {
    var t := PollState(s, r);
    Step(t, [], (if Finishes(s, r) then [SongFinished] else []) +
                [PlaybackUpdate(t.position, t.duration, r.busy, t.volume, t.currentSongId)])
  }

  /**
   * `song_finished` is emitted exactly when the device is idle while a loaded
   * song is playing, and then the song is unloaded with position and duration
   * reset; otherwise at most the position changes.
   */
  lemma BroadcastSpec(s: State, r: Reading)
    ensures SongFinished in Broadcast(s, r).events <==> Finishes(s, r)
    ensures Finishes(s, r) ==> Broadcast(s, r).state == Cleared(s) && !Loaded(Broadcast(s, r).state)
    ensures !Finishes(s, r) ==> Broadcast(s, r).state == s.(position := Broadcast(s, r).state.position)
    ensures Broadcast(s, r).events[|Broadcast(s, r).events| - 1].isPlaying == r.busy
    ensures Inv(s) ==> Inv(Broadcast(s, r).state)
  {
  }

  /** After a poll that found the device idle, no later poll reports the end of a track again, whatever the device then says. */
  lemma NoDoubleFinish(s: State, r1: Reading, r2: Reading)
    requires !r1.busy
    ensures SongFinished !in Broadcast(Broadcast(s, r1).state, r2).events
  {
    BroadcastSpec(s, r1);
    BroadcastSpec(Broadcast(s, r1).state, r2);
  }

  // ---------------------------------------------------------------------------
  // handle_toggle_play_pause and handle_stop
  // ---------------------------------------------------------------------------

  /** Pause when the device is busy, resume when a song is loaded, otherwise do nothing. */
  function Toggle(s: State, dev: Reading, after: Reading): Step {
    if dev.busy then
      var paused := (if dev.elapsedMs >= 0 then s.(position := dev.elapsedMs as real / 1000.0) else s).(isPlaying := false);
      var b := Broadcast(paused, after);
      Step(b.state, [PauseOp], b.events)
    else if Loaded(s) then
      var b := Broadcast(s.(isPlaying := true), after);
      Step(b.state, [UnpauseOp], b.events)
    else Step(s, [], [])
  }

  /**
   * Pausing keeps the song loaded and marks it not playing; resuming marks a
   * loaded song playing again when the device picks it up; with the device
   * idle and nothing loaded the toggle does nothing.
   */
  lemma ToggleSpec(s: State, dev: Reading, after: Reading)
    ensures dev.busy ==>
      Toggle(s, dev, after).ops == [PauseOp] &&
      !Toggle(s, dev, after).state.isPlaying && Toggle(s, dev, after).state.currentSongId == s.currentSongId
    ensures !dev.busy && Loaded(s) && after.busy ==>
      Toggle(s, dev, after).ops == [UnpauseOp] &&
      Toggle(s, dev, after).state.isPlaying && Toggle(s, dev, after).state.currentSongId == s.currentSongId
    ensures !dev.busy && !Loaded(s) ==> Toggle(s, dev, after) == Step(s, [], [])
    ensures Inv(s) ==> Inv(Toggle(s, dev, after).state)
  {
  }

  /**
   * Pausing a loaded song and toggling again resumes the same song: at the
   * position the device then reports when it reports one, at the position it
   * was paused at otherwise; a device that stays idle after the resume makes
   * the next poll treat the track as finished.
   */
  lemma PauseThenResume(s: State, d1: Reading, a1: Reading, d2: Reading, a2: Reading)
    requires Loaded(s) && d1.busy && !a1.busy && !d2.busy
    ensures var p := Toggle(s, d1, a1).state;
      !p.isPlaying && p.currentSongId == s.currentSongId && p.duration == s.duration &&
      p.position == (if d1.elapsedMs >= 0 then d1.elapsedMs as real / 1000.0 else s.position)
    ensures var p := Toggle(s, d1, a1).state;
      a2.busy && a2.elapsedMs >= 0 ==>
        Toggle(p, d2, a2).state == p.(isPlaying := true, position := a2.elapsedMs as real / 1000.0)
    ensures var p := Toggle(s, d1, a1).state;
      a2.busy && a2.elapsedMs < 0 ==> Toggle(p, d2, a2).state == p.(isPlaying := true)
    ensures var p := Toggle(s, d1, a1).state;
      !a2.busy ==> Toggle(p, d2, a2).state == Cleared(p) && SongFinished in Toggle(p, d2, a2).events
  {
  }

  /** Stop only when the device is busy: unload the song and reset position and duration. */
  function Stop(s: State, dev: Reading, after: Reading): Step {
    if dev.busy then
      var b := Broadcast(Cleared(s), after);
      Step(b.state, [StopOp], b.events)
    else Step(s, [], [])
  }

  /** A stop on a busy device leaves nothing loaded and keeps the volume; on an idle one, a paused song included, it does nothing. */
  lemma StopSpec(s: State, dev: Reading, after: Reading)
    ensures dev.busy ==> Stop(s, dev, after).state == Cleared(s) && Stop(s, dev, after).ops == [StopOp] &&
                         SongFinished !in Stop(s, dev, after).events
    ensures !dev.busy ==> Stop(s, dev, after) == Step(s, [], [])
    ensures Inv(s) ==> Inv(Stop(s, dev, after).state)
  {
    BroadcastSpec(Cleared(s), after);
  }

  // ---------------------------------------------------------------------------
  // set_volume and handle_volume
  // ---------------------------------------------------------------------------

  function Clamp(n: int, lo: int, hi: int): int
    requires lo <= hi
  {
    if n < lo then lo else if n > hi then hi else n
  }

  /** The volume a numeric request sets: the truncated percentage clamped to 0..100, over 100. */
  function VolumeLevel(x: real): real {
    Clamp(Text.Truncate(x), 0, 100) as real / 100.0
  }

  /** A numeric request sets the volume and tells the device; anything else (`None`) is refused and changes nothing. */
  function SetVolume(s: State, value: Option<real>): Step {
    match value
    case None => Step(s, [], [])
    case Some(x) => Step(s.(volume := VolumeLevel(x)), [SetVolumeOp(VolumeLevel(x))], [])
  }

  /** The level is the clamped truncation over 100: a whole percentage between 0 and 1. */
  lemma VolumeLevelRange(x: real)
    ensures 0.0 <= VolumeLevel(x) <= 1.0
    ensures (VolumeLevel(x) * 100.0).Floor as real == VolumeLevel(x) * 100.0
  {
    var p := Clamp(Text.Truncate(x), 0, 100);
    assert VolumeLevel(x) * 100.0 == p as real;
  }

  /**
   * Requests from 0 to just below 101 give their whole part over 100,
   * requests at or above 100 give 1.0 and requests below 1 give 0.0.
   */
  lemma VolumeLevelCases(x: real)
    ensures 0.0 <= x < 101.0 ==> VolumeLevel(x) == x.Floor as real / 100.0
    ensures x >= 100.0 ==> VolumeLevel(x) == 1.0
    ensures x < 1.0 ==> VolumeLevel(x) == 0.0
  {
    var n := Text.Truncate(x);
    if 0.0 <= x {
      assert n == x.Floor;
    }
  }

  /** A larger request never gives a lower level. */
  lemma VolumeLevelMonotone(x: real, y: real)
    requires x <= y
    ensures VolumeLevel(x) <= VolumeLevel(y)
  {
    var m, n := Text.Truncate(x), Text.Truncate(y);
    assert m <= n;
    assert Clamp(m, 0, 100) <= Clamp(n, 0, 100);
  }

  /**
   * The level is a whole percentage between 0 and 1, it is the truncated
   * request over 100 for requests from 0 to just below 101, requests at or
   * above 100 give 1.0, requests below 1 give 0.0, and a larger request
   * never gives a lower level.
   */
  lemma VolumeLevelSpec(x: real, y: real)
    ensures 0.0 <= VolumeLevel(x) <= 1.0
    ensures (VolumeLevel(x) * 100.0).Floor as real == VolumeLevel(x) * 100.0
    ensures 0.0 <= x < 101.0 ==> VolumeLevel(x) == x.Floor as real / 100.0
    ensures x >= 100.0 ==> VolumeLevel(x) == 1.0
    ensures x < 1.0 ==> VolumeLevel(x) == 0.0
    ensures x <= y ==> VolumeLevel(x) <= VolumeLevel(y)
  {
    VolumeLevelRange(x);
    VolumeLevelCases(x);
    if x <= y {
      VolumeLevelMonotone(x, y);
    }
  }

  /** 150 gives full volume, -5 gives silence, 60.9 gives 0.6; a refused request leaves the volume alone. */
  lemma VolumeExamples(s: State)
    ensures SetVolume(s, Some(150.0)).state.volume == 1.0
    ensures SetVolume(s, Some(-5.0)).state.volume == 0.0
    ensures SetVolume(s, Some(60.9)).state.volume == 0.6
    ensures SetVolume(s, None).state == s
  {
    VolumeLevelSpec(150.0, 150.0);
    VolumeLevelSpec(-5.0, -5.0);
    VolumeLevelSpec(60.9, 60.9);
    assert (60.9).Floor == 60;
  }

  lemma SetVolumeInv(s: State, value: Option<real>)
    requires Inv(s)
    ensures Inv(SetVolume(s, value).state)
    ensures SetVolume(s, value).state == s.(volume := SetVolume(s, value).state.volume)
  {
    if value.Some? {
      VolumeLevelSpec(value.value, value.value);
    }
  }

  // ---------------------------------------------------------------------------
  // play_music and play_next_song
  // ---------------------------------------------------------------------------

  /** The outcome of `play_music`: whether it succeeded, the new globals and rows, and what it did to the device. */
  datatype Played = Played(ok: bool, state: State, rows: seq<Catalog.Song>, ops: seq<DeviceOp>, events: seq<Event>)

  /**
   * Play the song with primary key `id`. An unknown id or a missing file
   * changes nothing. Otherwise a busy device is stopped; if loading or
   * starting the file then fails (`deviceOk` false) the globals and rows stay
   * as they were. On success the globals name the song, the row is stamped
   * with `now` and rotated to the end, and the state is broadcast.
   */
  function PlayMusic(s: State, rows: seq<Catalog.Song>, id: int, disk: Files.Disk,
                     dev: Reading, deviceOk: bool, after: Reading, now: int): Played
  {
    match Catalog.IndexOf(rows, id)
    case None => Played(false, s, rows, [], [])
    case Some(k) =>
      var actual := Files.FindActualFile(disk, rows[k].filename);
      if actual !in disk.present then Played(false, s, rows, [], [])
      else
        var stops := if dev.busy then [StopOp] else [];
        if !deviceOk then Played(false, s, rows, stops, [])
        else
          var started := s.(currentSongId := Some(id), duration := rows[k].duration, isPlaying := true, position := 0.0);
          var b := Broadcast(started, after);
          Played(true, b.state, Catalog.Rotate(rows, k, now), stops + [LoadOp(actual), PlayOp], b.events)
  }

  /** The failure paths change neither the globals nor the rows, and report nothing; an unknown id touches no device. */
  lemma PlayMusicFailure(s: State, rows: seq<Catalog.Song>, id: int, disk: Files.Disk,
                         dev: Reading, deviceOk: bool, after: Reading, now: int)
    ensures var p := PlayMusic(s, rows, id, disk, dev, deviceOk, after, now);
      !p.ok ==> p.state == s && p.rows == rows && p.events == [] && (p.ops == [] || p.ops == [StopOp])
    ensures Catalog.IndexOf(rows, id).None? ==>
      var p := PlayMusic(s, rows, id, disk, dev, deviceOk, after, now);
      !p.ok && p.ops == []
  {
  }

  /** A play succeeds exactly when the id names a row, its file is found on disk, and the device loads and starts it. */
  lemma PlayMusicOutcome(s: State, rows: seq<Catalog.Song>, id: int, disk: Files.Disk,
                         dev: Reading, deviceOk: bool, after: Reading, now: int)
    ensures PlayMusic(s, rows, id, disk, dev, deviceOk, after, now).ok <==>
      Catalog.IndexOf(rows, id).Some? && deviceOk &&
      Files.FindActualFile(disk, rows[Catalog.IndexOf(rows, id).value].filename) in disk.present
  {
  }

  /**
   * A success rotates the song's row, stops a busy device first, loads the
   * file as found on disk and starts it, and, while the device plays, names
   * the song with its duration.
   */
  lemma PlayMusicSuccess(s: State, rows: seq<Catalog.Song>, id: int, disk: Files.Disk,
                         dev: Reading, deviceOk: bool, after: Reading, now: int)
    requires PlayMusic(s, rows, id, disk, dev, deviceOk, after, now).ok
    ensures Catalog.IndexOf(rows, id).Some?
    ensures var p := PlayMusic(s, rows, id, disk, dev, deviceOk, after, now);
      var k := Catalog.IndexOf(rows, id).value;
      p.rows == Catalog.Rotate(rows, k, now) &&
      p.ops[|p.ops| - 2..] == [LoadOp(Files.FindActualFile(disk, rows[k].filename)), PlayOp] &&
      (dev.busy <==> p.ops[0] == StopOp) &&
      (after.busy && id != 0 ==> p.state.currentSongId == Some(id) && p.state.isPlaying &&
                                 p.state.duration == rows[k].duration && p.state.volume == s.volume)
  {
    var k := Catalog.IndexOf(rows, id).value;
    var started := s.(currentSongId := Some(id), duration := rows[k].duration, isPlaying := true, position := 0.0);
    BroadcastSpec(started, after);
  }

  /** A play keeps the globals' invariant. */
  lemma PlayMusicInv(s: State, rows: seq<Catalog.Song>, id: int, disk: Files.Disk,
                     dev: Reading, deviceOk: bool, after: Reading, now: int)
    requires Inv(s)
    ensures Inv(PlayMusic(s, rows, id, disk, dev, deviceOk, after, now).state)
  {
    if PlayMusic(s, rows, id, disk, dev, deviceOk, after, now).ok {
      var k := Catalog.IndexOf(rows, id).value;
      var started := s.(currentSongId := Some(id), duration := rows[k].duration, isPlaying := true, position := 0.0);
      BroadcastSpec(started, after);
    }
  }

  /** `play_next_song`: play the first song under the canonical ordering; with an empty table nothing happens. */
  function PlayNextSong(s: State, rows: seq<Catalog.Song>, disk: Files.Disk,
                        dev: Reading, deviceOk: bool, after: Reading, now: int): Played
  {
    match Catalog.FirstInPlayOrder(rows)
    case None => Played(false, s, rows, [], [])
    case Some(song) => PlayMusic(s, rows, song.id, disk, dev, deviceOk, after, now)
  }

  /**
   * With a non-empty table the first song in play order is played, and the
   * play succeeds exactly when its file is found on disk and the device works.
   */
  lemma PlayNextSongOutcome(s: State, rows: seq<Catalog.Song>, disk: Files.Disk,
                            dev: Reading, deviceOk: bool, after: Reading, now: int)
    requires Catalog.ValidTable(rows)
    ensures PlayNextSong(s, rows, disk, dev, deviceOk, after, now).ok <==>
      rows != [] && deviceOk && Files.FindActualFile(disk, Catalog.FirstInPlayOrder(rows).value.filename) in disk.present
  {
    if rows != [] {
      var song := Catalog.FirstInPlayOrder(rows).value;
      var j :| 0 <= j < |rows| && rows[j] == song;
      var k := Catalog.IndexOf(rows, song.id).value;
      assert rows[j].id == rows[k].id;
      PlayMusicOutcome(s, rows, song.id, disk, dev, deviceOk, after, now);
    }
  }

  /**
   * With an empty table nothing is played and nothing changes. Otherwise the
   * first song in play order is played, succeeding exactly when its file is
   * found on disk and the device works; a successful play rotates a row no
   * other row sorts strictly before.
   */
  lemma PlayNextSongSpec(s: State, rows: seq<Catalog.Song>, disk: Files.Disk,
                         dev: Reading, deviceOk: bool, after: Reading, now: int)
    requires Catalog.ValidTable(rows)
    ensures rows == [] ==> PlayNextSong(s, rows, disk, dev, deviceOk, after, now) == Played(false, s, rows, [], [])
    ensures PlayNextSong(s, rows, disk, dev, deviceOk, after, now).ok <==>
      rows != [] && deviceOk && Files.FindActualFile(disk, Catalog.FirstInPlayOrder(rows).value.filename) in disk.present
    ensures var p := PlayNextSong(s, rows, disk, dev, deviceOk, after, now);
      p.ok ==>
        exists k :: 0 <= k < |rows| && p.rows == Catalog.Rotate(rows, k, now) &&
          forall t :: t in rows ==> Lex.LessOrEqual(Catalog.PlayKey(rows[k]), Catalog.PlayKey(t))
  {
    PlayNextSongOutcome(s, rows, disk, dev, deviceOk, after, now);
    var p := PlayNextSong(s, rows, disk, dev, deviceOk, after, now);
    if rows != [] && p.ok {
      var song := Catalog.FirstInPlayOrder(rows).value;
      Catalog.FirstInPlayOrderIsMinimal(rows);
      var k := Catalog.IndexOf(rows, song.id).value;
      var j :| 0 <= j < |rows| && rows[j] == song;
      assert rows[j].id == rows[k].id;
      assert j == k;
    }
  }

  // ---------------------------------------------------------------------------
  // delete_song
  // ---------------------------------------------------------------------------

  datatype Deleted = Deleted(ok: bool, state: State, rows: seq<Catalog.Song>, disk: Files.Disk, ops: seq<DeviceOp>, events: seq<Event>)

  /**
   * Delete the song with primary key `id`: an unknown id changes nothing;
   * deleting the current song first stops the device and unloads it; the
   * file, if present, is removed, and so is the row.
   */
  function DeleteSong(s: State, rows: seq<Catalog.Song>, id: int, disk: Files.Disk, after: Reading): Deleted {
    match Catalog.IndexOf(rows, id)
    case None => Deleted(false, s, rows, disk, [], [])
    case Some(k) =>
      var stopped := if s.currentSongId == Some(id) then Broadcast(Cleared(s), after) else Step(s, [], []);
      var ops := if s.currentSongId == Some(id) then [StopOp] else [];
      var actual := Files.FindActualFile(disk, rows[k].filename);
      Deleted(true, stopped.state, Catalog.RemoveAt(rows, k), disk.(present := disk.present - {actual}), ops, stopped.events)
  }

  /**
   * The deletion succeeds exactly when a row has that id; an unknown id
   * changes nothing. Otherwise exactly the row with that id
   * goes, the table stays valid, the file goes from disk, and playback is
   * stopped and cleared exactly when the deleted song is the current one.
   */
  lemma DeleteSongSpec(s: State, rows: seq<Catalog.Song>, id: int, disk: Files.Disk, after: Reading)
    requires Catalog.ValidTable(rows)
    ensures DeleteSong(s, rows, id, disk, after).ok <==> Catalog.IndexOf(rows, id).Some?
    ensures var d := DeleteSong(s, rows, id, disk, after);
      Catalog.IndexOf(rows, id).None? ==> d == Deleted(false, s, rows, disk, [], [])
    ensures var d := DeleteSong(s, rows, id, disk, after);
      d.ok ==>
        Catalog.ValidTable(d.rows) && |d.rows| == |rows| - 1 &&
        (forall t :: t in d.rows <==> t in rows && t.id != id) &&
        Files.FindActualFile(disk, rows[Catalog.IndexOf(rows, id).value].filename) !in d.disk.present &&
        (s.currentSongId == Some(id) ==> d.state == Cleared(s) && d.ops == [StopOp]) &&
        (s.currentSongId != Some(id) ==> d.state == s && d.ops == [])
    ensures Inv(s) ==> Inv(DeleteSong(s, rows, id, disk, after).state)
  {
    match Catalog.IndexOf(rows, id)
    case None =>
    case Some(k) =>
      Catalog.RemoveAtSpec(rows, k);
      BroadcastSpec(Cleared(s), after);
  }

  // ---------------------------------------------------------------------------
  // The globals as the application mutates them
  // ---------------------------------------------------------------------------

  class Player {
    var currentSongId: Option<int>
    var duration: int
    var isPlaying: bool
    var position: real
    var volume: real

    function Globals(): State
      reads this
    {
      State(currentSongId, duration, isPlaying, position, volume)
    }

    constructor ()
      ensures Globals() == Initial
    {
      currentSongId := None;
      duration := 0;
      isPlaying := false;
      position := 0.0;
      volume := DefaultVolume;
    }

    /** `broadcast_playback_state`. */
    method Poll(r: Reading) returns (events: seq<Event>)
      modifies this
      ensures Globals() == Broadcast(old(Globals()), r).state && events == Broadcast(old(Globals()), r).events
    {
      var finished := false;
      if r.busy && currentSongId.Some? && currentSongId.value != 0 {
        if r.elapsedMs >= 0 {
          position := r.elapsedMs as real / 1000.0;
        }
      } else if !r.busy && isPlaying && currentSongId.Some? && currentSongId.value != 0 {
        position := 0.0;
        currentSongId := None;
        duration := 0;
        isPlaying := false;
        finished := true;
      }
      events := (if finished then [SongFinished] else []) +
                [PlaybackUpdate(position, duration, r.busy, volume, currentSongId)];
    }

    /** `handle_toggle_play_pause`. */
    method TogglePlayPause(dev: Reading, after: Reading) returns (ops: seq<DeviceOp>, events: seq<Event>)
      modifies this
      ensures Step(Globals(), ops, events) == Toggle(old(Globals()), dev, after)
    {
      if dev.busy {
        if dev.elapsedMs >= 0 {
          position := dev.elapsedMs as real / 1000.0;
        }
        ops := [PauseOp];
        isPlaying := false;
        events := Poll(after);
      } else if currentSongId.Some? && currentSongId.value != 0 {
        ops := [UnpauseOp];
        isPlaying := true;
        events := Poll(after);
      } else {
        ops, events := [], [];
      }
    }

    /** `handle_stop`. */
    method HandleStop(dev: Reading, after: Reading) returns (ops: seq<DeviceOp>, events: seq<Event>)
      modifies this
      ensures Step(Globals(), ops, events) == Stop(old(Globals()), dev, after)
    {
      ops, events := [], [];
      if dev.busy {
        ops := [StopOp];
        currentSongId := None;
        duration := 0;
        isPlaying := false;
        position := 0.0;
        events := Poll(after);
      }
    }

    /** `set_volume` and `handle_volume`; `ok` is false for a request that is not a number. */
    method ChangeVolume(value: Option<real>) returns (ok: bool, ops: seq<DeviceOp>)
      modifies this
      ensures ok <==> value.Some?
      ensures Step(Globals(), ops, []) == SetVolume(old(Globals()), value)
    {
      if value.None? {
        return false, [];
      }
      var percent := Text.Truncate(value.value);
      percent := Clamp(percent, 0, 100);
      volume := percent as real / 100.0;
      ops := [SetVolumeOp(volume)];
      ok := true;
    }

    /** `play_music`, rewriting the globals here and the rows of `table`. */
    method Play(table: Catalog.SongTable, id: int, disk: Files.Disk,
                     dev: Reading, deviceOk: bool, after: Reading, now: int)
      returns (ok: bool, ops: seq<DeviceOp>, events: seq<Event>)
      requires table.Valid()
      modifies this, table
      ensures table.Valid()
      ensures PlayMusic(old(Globals()), old(table.rows), id, disk, dev, deviceOk, after, now)
              == Played(ok, Globals(), table.rows, ops, events)
    {
      ghost var s0, rows0 := Globals(), table.rows;
      var found := Catalog.IndexOf(table.rows, id);
      if found.None? {
        return false, [], [];
      }
      var k := found.value;
      var song := table.rows[k];
      var actual := Files.FindActualFile(disk, song.filename);
      if actual !in disk.present {
        return false, [], [];
      }
      ops := if dev.busy then [StopOp] else [];
      if !deviceOk {
        return false, ops, [];
      }
      ops := ops + [LoadOp(actual), PlayOp];
      currentSongId := Some(id);
      duration := song.duration;
      isPlaying := true;
      position := 0.0;
      ghost var started := Globals();
      assert started == s0.(currentSongId := Some(id), duration := rows0[k].duration, isPlaying := true, position := 0.0);
      table.RecordPlayed(k, now);
      assert Globals() == started;
      events := Poll(after);
      ok := true;
    }

    /** `play_next_song`. */
    method PlayNext(table: Catalog.SongTable, disk: Files.Disk,
                        dev: Reading, deviceOk: bool, after: Reading, now: int)
      returns (ok: bool, ops: seq<DeviceOp>, events: seq<Event>)
      requires table.Valid()
      modifies this, table
      ensures table.Valid()
      ensures PlayNextSong(old(Globals()), old(table.rows), disk, dev, deviceOk, after, now)
              == Played(ok, Globals(), table.rows, ops, events)
    {
      var next := Catalog.FirstInPlayOrder(table.rows);
      if next.None? {
        return false, [], [];
      }
      ok, ops, events := Play(table, next.value.id, disk, dev, deviceOk, after, now);
    }

    /** `delete_song`, returning the disk after the file is removed. */
    method Delete(table: Catalog.SongTable, id: int, disk: Files.Disk, after: Reading)
      returns (ok: bool, disk': Files.Disk, ops: seq<DeviceOp>, events: seq<Event>)
      requires table.Valid()
      modifies this, table
      ensures table.Valid()
      ensures DeleteSong(old(Globals()), old(table.rows), id, disk, after)
              == Deleted(ok, Globals(), table.rows, disk', ops, events)
    {
      var found := Catalog.IndexOf(table.rows, id);
      if found.None? {
        return false, disk, [], [];
      }
      var k := found.value;
      ops, events := [], [];
      if currentSongId == Some(id) {
        ops := [StopOp];
        currentSongId := None;
        duration := 0;
        isPlaying := false;
        position := 0.0;
        events := Poll(after);
      }
      var actual := Files.FindActualFile(disk, table.rows[k].filename);
      disk' := disk.(present := disk.present - {actual});
      table.Remove(k);
      ok := true;
    }
  }
}

=== FILE: scheduling.dfy ===
/**
 * Playback schedules: the `schedule` rows, the rebuild of the scheduler's job
 * table from them, and the lookup of the next schedule the interface shows.
 *
 * The scheduler is its job table, a map from job id to job. Clock readings
 * are `Instant`s: a day number (day 0 is Thursday 1 January 1970) and the
 * microseconds elapsed since local midnight.
 */
module Scheduling {
  import opened Wrappers
  import Text
  import Lex
  import Catalog

  /** A row of the `schedule` table: an `"HH:MM"` time, an enabled flag and one flag per weekday. */
  datatype ScheduleRow = ScheduleRow(
    id: int,
    time: string,
    enabled: bool,
    monday: bool,
    tuesday: bool,
    wednesday: bool,
    thursday: bool,
    friday: bool,
    saturday: bool,
    sunday: bool)

  /** The weekday flags in Monday..Sunday order. */
  function Flags(r: ScheduleRow): (f: seq<bool>)
    ensures |f| == 7
  {
    [r.monday, r.tuesday, r.wednesday, r.thursday, r.friday, r.saturday, r.sunday]
  }

  /** The cron day codes, Monday first. */
  const DayCodes: seq<string> := ["mon", "tue", "wed", "thu", "fri", "sat", "sun"]

  /** The lower-case weekday names, Monday first, as `strftime("%A").lower()` gives them. */
  const DayNames: seq<string> := ["monday", "tuesday", "wednesday", "thursday", "friday", "saturday", "sunday"]

  /** The names whose flag is set, in the order of the list. */
  function Select(flags: seq<bool>, names: seq<string>): (r: seq<string>)
    requires |flags| == |names|
    ensures |r| <= |names|
    ensures forall x :: x in r ==> x in names
  {
    if flags == [] then []
    else (if flags[0] then [names[0]] else []) + Select(flags[1..], names[1..])
  }

  /** The names of the days a schedule runs on, in Monday..Sunday order. */
  function EnabledDays(r: ScheduleRow, names: seq<string>): seq<string>
    requires |names| == 7
  {
    Select(Flags(r), names)
  }

  /** A name is selected exactly when its own flag is set (the names being distinct), and nothing is selected exactly when no flag is. */
  lemma {:induction false} SelectSpec(flags: seq<bool>, names: seq<string>)
    requires |flags| == |names|
    requires forall i, j :: 0 <= i < j < |names| ==> names[i] != names[j]
    ensures forall i :: 0 <= i < |names| ==> (names[i] in Select(flags, names) <==> flags[i])
    ensures Select(flags, names) == [] <==> forall i :: 0 <= i < |flags| ==> !flags[i]
  {
    if flags != [] {
      SelectSpec(flags[1..], names[1..]);
      assert forall i :: 1 <= i < |names| ==> names[1..][i - 1] == names[i];
      assert forall i :: 1 <= i < |flags| ==> flags[1..][i - 1] == flags[i];
    }
  }

  // ---------------------------------------------------------------------------
  // Times of day
  // ---------------------------------------------------------------------------

  /** `map(int, time.split(':'))` unpacked into hour and minute: exactly two pieces, each an integer. */
  function ParseTime(t: string): Option<(int, int)> {
    var parts := Text.Split(t, ':');
    if |parts| != 2 then None
    else
      match (Text.ParseInt(parts[0]), Text.ParseInt(parts[1]))
      case (Some(h), Some(m)) => Some((h, m))
      case _ => None
  }

  predicate ValidTime(h: int, m: int) {
    0 <= h <= 23 && 0 <= m <= 59
  }

  /** Two-digit zero-padded rendering, as `%H` and `%M` give it. */
  function TwoDigits(n: nat): string {
    Text.PadStart(Text.NatToString(n), 2, '0')
  }

  /** `"HH:MM"`, as `strftime("%H:%M")` writes a time of day. */
  function FormatHHMM(h: nat, m: nat): string {
    TwoDigits(h) + ":" + TwoDigits(m)
  }

  lemma TwoDigitsChars(n: nat)
    requires n < 100
    ensures TwoDigits(n) == [Text.DigitChar(n / 10), Text.DigitChar(n % 10)]
  {
    if n >= 10 {
      assert Text.NatToString(n / 10) == [Text.DigitChar(n / 10)];
    }
  }

  lemma TwoDigitsParse(n: nat)
    ensures Text.AllDigits(TwoDigits(n))
    ensures Text.ParseInt(TwoDigits(n)) == Some(n)
  {
    var s := TwoDigits(n);
    Text.ZeroPadValue(Text.NatToString(n), 2);
    Text.DigitsRoundTrip(n);
    assert Text.IsDigit(s[0]);
  }

  /** Reading back a formatted time gives the hour and minute it was written from. */
  lemma ParseFormatHHMM(h: nat, m: nat)
    ensures ParseTime(FormatHHMM(h, m)) == Some((h, m))
  {
    var a, b := TwoDigits(h), TwoDigits(m);
    TwoDigitsParse(h);
    TwoDigitsParse(m);
    Text.DigitsFree(a, ':');
    Text.DigitsFree(b, ':');
    Text.SplitTwo(a, ':', b);
    assert FormatHHMM(h, m) == a + [':'] + b;
  }

  /**
   * For well-formed times, the text order the database uses to compare
   * `"HH:MM"` strings is the order of the times of day.
   */
  lemma FormatHHMMOrder(h1: nat, m1: nat, h2: nat, m2: nat)
    requires ValidTime(h1, m1) && ValidTime(h2, m2)
    ensures Text.StrLess(FormatHHMM(h1, m1), FormatHHMM(h2, m2)) <==> h1 * 60 + m1 < h2 * 60 + m2
  {
    var a1, c1 := TwoDigitCodes(h1), TwoDigitCodes(m1);
    var a2, c2 := TwoDigitCodes(h2), TwoDigitCodes(m2);
    FormatCodes(h1, m1);
    FormatCodes(h2, m2);
    Lex.ConcatLess(a1, [58] + c1, a2, [58] + c2);
    Lex.ConcatLess([58], c1, [58], c2);
    Lex.Irreflexive([58]);
    TwoDigitOrder(h1, h2);
    TwoDigitOrder(m1, m2);
    MinuteOrder(h1, m1, h2, m2);
  }

  function TwoDigitCodes(n: nat): seq<int> {
    [n / 10 + 48, n % 10 + 48]
  }

  lemma FormatCodes(h: nat, m: nat)
    requires ValidTime(h, m)
    ensures Text.Codes(FormatHHMM(h, m)) == TwoDigitCodes(h) + ([58] + TwoDigitCodes(m))
  {
    var a, b := TwoDigits(h), TwoDigits(m);
    TwoDigitsCodes(h);
    TwoDigitsCodes(m);
    assert FormatHHMM(h, m) == a + [':'] + b;
    Text.CodesAround(a, ':', b);
  }

  lemma TwoDigitsCodes(n: nat)
    requires n < 100
    ensures Text.Codes(TwoDigits(n)) == TwoDigitCodes(n)
  {
    var d1, d0 := n / 10, n % 10;
    var c1, c0 := Text.DigitChar(d1), Text.DigitChar(d0);
    assert c1 as int == d1 + 48 && c0 as int == d0 + 48;
    TwoDigitsChars(n);
    assert TwoDigits(n) == [c1, c0];
    CodesPair(c1, c0);
  }

  lemma CodesPair(a: char, b: char)
    ensures Text.Codes([a, b]) == [a as int, b as int]
  {
  }

  /** Below 100, the code order of two-digit renderings is the order of the numbers. */
  lemma TwoDigitOrder(x: nat, y: nat)
    requires x < 100 && y < 100
    ensures Lex.Less(TwoDigitCodes(x), TwoDigitCodes(y)) <==> x < y
    ensures TwoDigitCodes(x) == TwoDigitCodes(y) <==> x == y
  {
    Lex.PairLess(x / 10 + 48, x % 10 + 48, y / 10 + 48, y % 10 + 48);
  }

  lemma MinuteOrder(h1: int, m1: int, h2: int, m2: int)
    requires ValidTime(h1, m1) && ValidTime(h2, m2)
    ensures h1 * 60 + m1 < h2 * 60 + m2 <==> h1 < h2 || (h1 == h2 && m1 < m2)
  {
  }

  /** Text order is not time order for an unpadded hour: `"10:00"` sorts before `"7:30"`, which still parses as 7:30. */
  lemma UnpaddedTimeSortsLate()
    ensures Text.StrLess("10:00", "7:30")
    ensures ParseTime("7:30") == Some((7, 30))
  {
    assert Text.Codes("10:00")[0] == 49 && Text.Codes("7:30")[0] == 55;
    Text.SplitAtFirst("7", ':', "30");
    Text.SplitNoSeparator("30", ':');
    assert "7" + [':'] + "30" == "7:30";
    assert Text.DigitsValue("30") == 30;
  }

  // ---------------------------------------------------------------------------
  // Clock
  // ---------------------------------------------------------------------------

  const MicrosPerMinute: int := 60_000_000
  const MicrosPerDay: int := 86_400_000_000

  datatype Instant = Instant(day: int, micros: int)

  predicate ValidInstant(t: Instant) {
    0 <= t.micros < MicrosPerDay
  }

  /** `datetime.weekday()`: Monday is 0; day 0 was a Thursday. */
  function Weekday(t: Instant): (d: nat)
    ensures d < 7
  {
    (t.day + 3) % 7
  }

  /** Today at `h:m:00.000000`, `now.replace(hour=h, minute=m, second=0, microsecond=0)`. */
  function TodayAt(now: Instant, h: int, m: int): Instant {
    Instant(now.day, (h * 60 + m) * MicrosPerMinute)
  }

  predicate After(a: Instant, b: Instant) {
    a.day > b.day || (a.day == b.day && a.micros > b.micros)
  }

  // ---------------------------------------------------------------------------
  // The job table
  // ---------------------------------------------------------------------------

  datatype JobId = BroadcastPlayback | UpdateYtdlp | ScheduleJob(scheduleId: int)

  /** The job id as text: `broadcast_playback`, `update_ytdlp` or `schedule_<id>`. */
  function JobName(j: JobId): string {
    match j
    case BroadcastPlayback => "broadcast_playback"
    case UpdateYtdlp => "update_ytdlp"
    case ScheduleJob(id) => "schedule_" + Text.IntToString(id)
  }

  /** Distinct schedules get distinct job names, so `replace_existing` only ever replaces a schedule's own job. */
  lemma ScheduleJobNamesDistinct(a: int, b: int)
    requires a != b
    ensures JobName(ScheduleJob(a)) != JobName(ScheduleJob(b))
  {
    var p := "schedule_";
    if JobName(ScheduleJob(a)) == JobName(ScheduleJob(b)) {
      assert (p + Text.IntToString(a))[|p|..] == Text.IntToString(a);
      assert (p + Text.IntToString(b))[|p|..] == Text.IntToString(b);
      Text.ParseIntToString(a);
      Text.ParseIntToString(b);
    }
  }

  /** What a job runs: the guarded broadcast, the plain broadcast, the yt-dlp update, or the next song. */
  datatype Action = SafeBroadcast | BroadcastState | RunUpdateYtdlp | PlayNextSong

  datatype Trigger = Interval(millis: nat) | DailyAt(atHour: nat) | Cron(hour: int, minute: int, daysOfWeek: string)

  datatype Job = Job(action: Action, trigger: Trigger, nextRun: Option<Instant>)

  const BroadcastIntervalMillis: nat := 500
  const UpdateYtdlpHour: nat := 1

  /** The jobs `init_scheduler` starts with. */
  function StartupJobs(): map<JobId, Job> {
    map[BroadcastPlayback := Job(SafeBroadcast, Interval(BroadcastIntervalMillis), None),
        UpdateYtdlp := Job(RunUpdateYtdlp, DailyAt(UpdateYtdlpHour), None)]
  }

  const RestoredBroadcast: Job := Job(BroadcastState, Interval(BroadcastIntervalMillis), None)
  const RestoredUpdate: Job := Job(RunUpdateYtdlp, DailyAt(UpdateYtdlpHour), None)

  /** The infrastructure jobs, re-created afresh if and only if they were there before. */
  function Restored(before: map<JobId, Job>): (r: map<JobId, Job>)
    ensures forall j :: j in r <==> (j == BroadcastPlayback || j == UpdateYtdlp) && j in before
  {
    var m := if BroadcastPlayback in before then map[BroadcastPlayback := RestoredBroadcast] else map[];
    if UpdateYtdlp in before then m[UpdateYtdlp := RestoredUpdate] else m
  }

  /** `','.join(parts)`. */
  function JoinWith(parts: seq<string>, sep: char): string {
    if parts == [] then ""
    else if |parts| == 1 then parts[0]
    else parts[0] + [sep] + JoinWith(parts[1..], sep)
  }

  /** Splitting a joined list at the separator gives the list back when no piece holds the separator. */
  lemma {:induction false} SplitJoinWith(parts: seq<string>, sep: char)
    requires parts != []
    requires forall i :: 0 <= i < |parts| ==> sep !in parts[i]
    ensures Text.Split(JoinWith(parts, sep), sep) == parts
  {
    if |parts| == 1 {
      Text.SplitNoSeparator(parts[0], sep);
    } else {
      SplitJoinWith(parts[1..], sep);
      Text.SplitAtFirst(parts[0], sep, JoinWith(parts[1..], sep));
      assert [parts[0]] + parts[1..] == parts;
    }
  }

  /** A row gets a job when its time parses to a valid hour and minute and at least one weekday is flagged. */
  predicate Schedulable(r: ScheduleRow) {
    ParseTime(r.time).Some? && ValidTime(ParseTime(r.time).value.0, ParseTime(r.time).value.1) &&
    EnabledDays(r, DayCodes) != []
  }

  /** The cron job for a schedule, anchored to today at its time exactly when that moment is still ahead. */
  function JobFor(r: ScheduleRow, h: int, m: int, now: Instant): Job {
    var today := TodayAt(now, h, m);
    Job(PlayNextSong, Cron(h, m, JoinWith(EnabledDays(r, DayCodes), ',')), if After(today, now) then Some(today) else None)
  }

  /** One iteration of the loop over schedules; a row that does not qualify is skipped. */
  function AddOne(jobs: map<JobId, Job>, r: ScheduleRow, now: Instant): map<JobId, Job> {
    match ParseTime(r.time)
    case None => jobs
    case Some((h, m)) =>
      if !ValidTime(h, m) || EnabledDays(r, DayCodes) == [] then jobs
      else jobs[ScheduleJob(r.id) := JobFor(r, h, m, now)]
  }

  function AddAll(jobs: map<JobId, Job>, rows: seq<ScheduleRow>, now: Instant): map<JobId, Job> {
    if rows == [] then jobs else AddOne(AddAll(jobs, rows[..|rows| - 1], now), rows[|rows| - 1], now)
  }

  /** `filter_by(enabled=True)`. */
  function EnabledRows(rows: seq<ScheduleRow>): (r: seq<ScheduleRow>)
    ensures forall x :: x in r <==> x in rows && x.enabled
  {
    if rows == [] then [] else (if rows[0].enabled then [rows[0]] else []) + EnabledRows(rows[1..])
  }

  datatype Reconciled = Reconciled(ok: bool, jobs: map<JobId, Job>)

  /**
   * `schedule_music`. `current` is `None` before the scheduler exists; `rows`
   * is `None` when reading the table fails, in which case the rebuild reports
   * failure and only makes sure the broadcast job exists.
   */
  function Reconcile(current: Option<map<JobId, Job>>, rows: Option<seq<ScheduleRow>>, now: Instant): Reconciled {
    var before := if current.None? then StartupJobs() else current.value;
    var restored := Restored(before);
    match rows
    case None => Reconciled(false, if BroadcastPlayback in restored then restored else restored[BroadcastPlayback := RestoredBroadcast])
    case Some(rs) => Reconciled(true, AddAll(restored, EnabledRows(rs), now))
  }

  lemma {:induction false} AddAllKeys(jobs: map<JobId, Job>, rows: seq<ScheduleRow>, now: Instant)
    ensures forall j :: j in AddAll(jobs, rows, now) <==>
      j in jobs || (j.ScheduleJob? && exists r :: r in rows && Schedulable(r) && r.id == j.scheduleId)
  {
    if rows != [] {
      var init, last := rows[..|rows| - 1], rows[|rows| - 1];
      AddAllKeys(jobs, init, now);
      assert rows == init + [last];
      assert forall r :: r in rows <==> r in init || r == last;
    }
  }

  /**
   * After a successful rebuild the jobs are the infrastructure jobs that
   * existed before (both, on first use) plus one job per enabled row that
   * qualifies; a row that does not qualify costs only its own job.
   */
  lemma JobSetSpec(current: Option<map<JobId, Job>>, rs: seq<ScheduleRow>, now: Instant)
    ensures Reconcile(current, Some(rs), now).ok
    ensures var before := if current.None? then StartupJobs() else current.value;
      forall j :: j in Reconcile(current, Some(rs), now).jobs <==>
        ((j == BroadcastPlayback || j == UpdateYtdlp) && j in before) ||
        (j.ScheduleJob? && exists r :: r in rs && r.enabled && Schedulable(r) && r.id == j.scheduleId)
  {
    var before := if current.None? then StartupJobs() else current.value;
    var en := EnabledRows(rs);
    assert Reconcile(current, Some(rs), now).jobs == AddAll(Restored(before), en, now);
    AddAllKeys(Restored(before), en, now);
  }

  /** The table read failing keeps the infrastructure jobs that existed, guarantees the broadcast job, and schedules nothing. */
  lemma ReconcileFailureSpec(current: Option<map<JobId, Job>>, now: Instant)
    ensures var r := Reconcile(current, None, now);
      var before := if current.None? then StartupJobs() else current.value;
      !r.ok && BroadcastPlayback in r.jobs && (UpdateYtdlp in r.jobs <==> UpdateYtdlp in before) &&
      forall j :: j in r.jobs ==> !j.ScheduleJob?
  {
  }

  /** A qualifying row's job runs the next song at its hour and minute on its flagged days, joined as `mon,tue,...`. */
  lemma {:induction false} AddAllJob(jobs: map<JobId, Job>, rows: seq<ScheduleRow>, now: Instant, i: nat)
    requires i < |rows| && Schedulable(rows[i])
    requires forall a, b :: 0 <= a < b < |rows| ==> rows[a].id != rows[b].id
    ensures var h, m := ParseTime(rows[i].time).value.0, ParseTime(rows[i].time).value.1;
      ScheduleJob(rows[i].id) in AddAll(jobs, rows, now) &&
      AddAll(jobs, rows, now)[ScheduleJob(rows[i].id)] == JobFor(rows[i], h, m, now)
  {
    var init := rows[..|rows| - 1];
    if i < |rows| - 1 {
      assert init[i] == rows[i];
      assert rows[|rows| - 1].id != rows[i].id;
      AddAllJob(jobs, init, now, i);
    }
  }

  /**
   * A schedule's next run is today at its time exactly when that moment is
   * still ahead of `now`, whether or not today is one of its days; otherwise
   * the cron trigger picks the next run.
   */
  lemma AnchorSpec(r: ScheduleRow, h: int, m: int, now: Instant)
    requires ValidTime(h, m) && ValidInstant(now)
    ensures (h * 60 + m) * MicrosPerMinute > now.micros ==>
      JobFor(r, h, m, now).nextRun == Some(Instant(now.day, (h * 60 + m) * MicrosPerMinute))
    ensures (h * 60 + m) * MicrosPerMinute <= now.micros ==> JobFor(r, h, m, now).nextRun.None?
    ensures forall r2: ScheduleRow :: JobFor(r2, h, m, now).nextRun == JobFor(r, h, m, now).nextRun
  {
  }

  /** A qualifying schedule whose time is still ahead is anchored to today even when today is not one of its days. */
  lemma AnchorOnUnflaggedDay(r: ScheduleRow, h: int, m: int, now: Instant)
    requires ValidInstant(now) && ParseTime(r.time) == Some((h, m)) && ValidTime(h, m)
    requires EnabledDays(r, DayCodes) != [] && !Flags(r)[Weekday(now)]
    requires (h * 60 + m) * MicrosPerMinute > now.micros
    ensures ScheduleJob(r.id) in AddOne(map[], r, now)
    ensures AddOne(map[], r, now)[ScheduleJob(r.id)].nextRun == Some(TodayAt(now, h, m))
  {
  }

  /** Rebuilding twice from the same rows gives the same job table, and the same job ids whatever the second clock reading. */
  lemma ReconcileIdempotent(current: Option<map<JobId, Job>>, rs: seq<ScheduleRow>, now: Instant, later: Instant)
    ensures var once := Reconcile(current, Some(rs), now).jobs;
      Reconcile(Some(once), Some(rs), now).jobs == once &&
      Reconcile(Some(once), Some(rs), later).jobs.Keys == once.Keys
  {
    var before := if current.None? then StartupJobs() else current.value;
    var en := EnabledRows(rs);
    var once := AddAll(Restored(before), en, now);
    AddAllKeys(Restored(before), en, now);
    assert Restored(once) == Restored(before);
    AddAllKeys(Restored(once), en, later);
  }

  // ---------------------------------------------------------------------------
  // The scheduler as the application mutates it
  // ---------------------------------------------------------------------------

  class JobStore {
    var started: bool
    var jobs: map<JobId, Job>

    constructor ()
      ensures !started && jobs == map[]
    {
      started := false;
      jobs := map[];
    }

    /** `init_scheduler`: create the scheduler with its two infrastructure jobs unless it exists. */
    method InitScheduler()
      modifies this
      ensures started
      ensures jobs == if old(started) then old(jobs) else StartupJobs()
    {
      if !started {
        started := true;
        jobs := map[];
        jobs := jobs[BroadcastPlayback := Job(SafeBroadcast, Interval(BroadcastIntervalMillis), None)];
        jobs := jobs[UpdateYtdlp := Job(RunUpdateYtdlp, DailyAt(UpdateYtdlpHour), None)];
      }
    }

    /** `schedule_music`; `rows` is `None` when the table cannot be read. */
    method ScheduleMusic(rows: Option<seq<ScheduleRow>>, now: Instant) returns (ok: bool)
      modifies this
      ensures started
      ensures Reconciled(ok, jobs) == Reconcile(if old(started) then Some(old(jobs)) else None, rows, now)
    {
      InitScheduler();
      RestoreInfrastructure();
      if rows.None? {
        if BroadcastPlayback !in jobs {
          jobs := jobs[BroadcastPlayback := RestoredBroadcast];
        }
        return false;
      }
      AddScheduleJobs(EnabledRows(rows.value), now);
      ok := true;
    }

    /** Remove every job, then re-create the infrastructure jobs that were present. */
    method RestoreInfrastructure()
      modifies this
      ensures started == old(started) && jobs == Restored(old(jobs))
    {
      var before := jobs;
      jobs := map[];
      if BroadcastPlayback in before {
        jobs := jobs[BroadcastPlayback := RestoredBroadcast];
      }
      if UpdateYtdlp in before {
        jobs := jobs[UpdateYtdlp := RestoredUpdate];
      }
    }

    /** The loop over enabled schedules: add a cron job for each that qualifies, skip the others. */
    method AddScheduleJobs(schedules: seq<ScheduleRow>, now: Instant)
      modifies this
      ensures started == old(started) && jobs == AddAll(old(jobs), schedules, now)
    {
      ghost var restored := jobs;
      for i := 0 to |schedules|
        invariant started == old(started)
        invariant jobs == AddAll(restored, schedules[..i], now)
      {
        assert schedules[..i + 1][..i] == schedules[..i];
        var r := schedules[i];
        var parsed := ParseTime(r.time);
        if parsed.Some? {
          var (h, m) := parsed.value;
          if 0 <= h <= 23 && 0 <= m <= 59 {
            var days := EnabledDays(r, DayCodes);
            if days != [] {
              var scheduleTime := Instant(now.day, (h * 60 + m) * MicrosPerMinute);
              var next := if After(scheduleTime, now) then Some(scheduleTime) else None;
              jobs := jobs[ScheduleJob(r.id) := Job(PlayNextSong, Cron(h, m, JoinWith(days, ',')), next)];
            }
          }
        }
      }
      assert schedules[..|schedules|] == schedules;
    }
  }

  // ---------------------------------------------------------------------------
  // get_next_scheduled_song
  // ---------------------------------------------------------------------------

  /** `now.strftime("%H:%M")`. */
  function ClockText(now: Instant): string
    requires ValidInstant(now)
  {
    FormatHHMM(now.micros / (60 * MicrosPerMinute), now.micros / MicrosPerMinute % 60)
  }

  /** Enabled rows whose time text sorts after `clock`. */
  function LaterRows(rows: seq<ScheduleRow>, clock: string): (r: seq<ScheduleRow>)
    ensures forall x :: x in r <==> x in rows && x.enabled && Text.StrLess(clock, x.time)
  {
    if rows == [] then []
    else (if rows[0].enabled && Text.StrLess(clock, rows[0].time) then [rows[0]] else []) + LaterRows(rows[1..], clock)
  }

  /** Rows flagged for weekday `d`. */
  function FlaggedOn(rows: seq<ScheduleRow>, d: nat): (r: seq<ScheduleRow>)
    requires d < 7
    ensures forall x :: x in r <==> x in rows && Flags(x)[d]
  {
    if rows == [] then [] else (if Flags(rows[0])[d] then [rows[0]] else []) + FlaggedOn(rows[1..], d)
  }

  /** The row with the smallest time text, the first one stored among equals; `None` for no rows. */
  function Earliest(rows: seq<ScheduleRow>): (r: Option<ScheduleRow>)
    ensures r.None? <==> rows == []
    ensures r.Some? ==> r.value in rows
  {
    if rows == [] then None
    else
      match Earliest(rows[1..])
      case None => Some(rows[0])
      case Some(e) => if Text.StrLess(e.time, rows[0].time) then Some(e) else Some(rows[0])
  }

  lemma {:induction false} EarliestIsMinimal(rows: seq<ScheduleRow>)
    requires rows != []
    ensures forall t :: t in rows ==> !Text.StrLess(t.time, Earliest(rows).value.time)
  {
    var tail := rows[1..];
    var r := Earliest(rows).value;
    if tail != [] {
      EarliestIsMinimal(tail);
      var e := Earliest(tail).value;
      forall t | t in rows
        ensures !Text.StrLess(t.time, r.time)
      {
        if t == rows[0] {
          if r != rows[0] {
            Lex.Asymmetric(Text.Codes(e.time), Text.Codes(rows[0].time));
          } else {
            Lex.Irreflexive(Text.Codes(t.time));
          }
        } else {
          assert t in tail;
          if r == rows[0] {
            Lex.LessOrEqualTransitive(Text.Codes(rows[0].time), Text.Codes(e.time), Text.Codes(t.time));
          }
        }
      }
    } else {
      Lex.Irreflexive(Text.Codes(rows[0].time));
    }
  }

  /** What the interface shows as the next schedule: its time, its weekday names and the title of the song that would play. */
  datatype NextInfo = NextInfo(time: string, weekdays: seq<string>, song: Option<string>)

  /** The enabled schedules from which the next one is picked: those later than the clock, or all of them when none is. */
  function Candidates(rows: seq<ScheduleRow>, now: Instant): seq<ScheduleRow>
    requires ValidInstant(now)
  {
    var later := LaterRows(rows, ClockText(now));
    if later == [] then EnabledRows(rows) else later
  }

  function NextScheduledSong(rows: seq<ScheduleRow>, songs: seq<Catalog.Song>, now: Instant): Option<NextInfo>
    requires ValidInstant(now)
  {
    match Earliest(FlaggedOn(Candidates(rows, now), Weekday(now)))
    case None => None
    case Some(r) =>
      var next := Catalog.FirstInPlayOrder(songs);
      Some(NextInfo(r.time, EnabledDays(r, DayNames), if next.None? then None else Some(next.value.title)))
  }

  /**
   * The pick is an enabled schedule flagged for today whose time text no
   * other candidate flagged for today undercuts, and it is later than the
   * clock whenever any enabled schedule is: an earlier schedule is then never
   * shown, even when no later one runs today.
   */
  predicate IsPick(rows: seq<ScheduleRow>, now: Instant, r: ScheduleRow)
    requires ValidInstant(now)
  {
    r in rows && r.enabled && Flags(r)[Weekday(now)] &&
    (forall t :: t in Candidates(rows, now) && Flags(t)[Weekday(now)] ==> !Text.StrLess(t.time, r.time)) &&
    ((exists x :: x in rows && x.enabled && Text.StrLess(ClockText(now), x.time)) ==> Text.StrLess(ClockText(now), r.time))
  }

  lemma CandidatesSpec(rows: seq<ScheduleRow>, now: Instant)
    requires ValidInstant(now)
    ensures forall r :: r in Candidates(rows, now) ==> r in rows && r.enabled
    ensures (exists x :: x in rows && x.enabled && Text.StrLess(ClockText(now), x.time)) ==>
      forall r :: r in Candidates(rows, now) ==> Text.StrLess(ClockText(now), r.time)
  {
    if exists x :: x in rows && x.enabled && Text.StrLess(ClockText(now), x.time) {
      var x :| x in rows && x.enabled && Text.StrLess(ClockText(now), x.time);
      assert x in LaterRows(rows, ClockText(now));
    }
  }

  /** The lookup shows the time and the enabled day names of a pick, or nothing exactly when no candidate runs today. */
  lemma NextScheduledSpec(rows: seq<ScheduleRow>, songs: seq<Catalog.Song>, now: Instant)
    requires ValidInstant(now)
    ensures NextScheduledSong(rows, songs, now).None? <==>
      forall r :: r in Candidates(rows, now) ==> !Flags(r)[Weekday(now)]
    ensures NextScheduledSong(rows, songs, now).Some? ==>
      exists r :: IsPick(rows, now, r) && r.time == NextScheduledSong(rows, songs, now).value.time &&
        NextScheduledSong(rows, songs, now).value.weekdays == EnabledDays(r, DayNames)
  {
    var c := Candidates(rows, now);
    var f := FlaggedOn(c, Weekday(now));
    CandidatesSpec(rows, now);
    if f != [] {
      EarliestIsMinimal(f);
      var r := Earliest(f).value;
      assert r in c;
      assert IsPick(rows, now, r);
      var n := NextScheduledSong(rows, songs, now).value;
      assert n.time == r.time && n.weekdays == EnabledDays(r, DayNames);
    } else {
      forall r | r in c
        ensures !Flags(r)[Weekday(now)]
      {
        assert r !in f;
      }
    }
  }

  /** The song shown is the one the canonical ordering would play next, and none exactly when the catalog is empty. */
  lemma NextScheduledTitle(rows: seq<ScheduleRow>, songs: seq<Catalog.Song>, now: Instant)
    requires ValidInstant(now)
    ensures var n := NextScheduledSong(rows, songs, now);
      n.Some? ==> (n.value.song.None? <==> songs == []) &&
                  (songs != [] ==> n.value.song == Some(Catalog.FirstInPlayOrder(songs).value.title))
  {
  }
}

=== FILE: text.dfy ===
/**
 * Text helpers shared by the back end and the front end: decimal rendering and
 * parsing of integers, truncation of a real toward zero, zero padding, Python's `str.split`, substring tests,
 * ASCII lower-casing and code-point order on strings.
 */
module Text {
  import opened Wrappers
  import Lex

  predicate IsDigit(c: char) {
    '0' <= c <= '9'
  }

  predicate AllDigits(s: string) {
    forall i :: 0 <= i < |s| ==> IsDigit(s[i])
  }

  function DigitChar(d: nat): (c: char)
    requires d < 10
    ensures IsDigit(c) && c as int - '0' as int == d
  {
    (d + '0' as int) as char
  }

  /** Decimal rendering of a non-negative integer, without leading zeros (`str(n)`, `n.toString()`). */
  function NatToString(n: nat): (s: string)
    ensures |s| > 0 && AllDigits(s)
    ensures n < 10 <==> |s| == 1
    decreases n
  {
    if n < 10 then [DigitChar(n)] else NatToString(n / 10) + [DigitChar(n % 10)]
  }

  /** The value of a run of ASCII digits (leading zeros allowed). */
  function DigitsValue(s: string): nat
    requires AllDigits(s)
  {
    if s == [] then 0 else DigitsValue(s[..|s| - 1]) * 10 + (s[|s| - 1] as int - '0' as int)
  }

  lemma {:induction false} DigitsRoundTrip(n: nat)
    ensures DigitsValue(NatToString(n)) == n
  {
    if n >= 10 {
      var s := NatToString(n);
      assert s[..|s| - 1] == NatToString(n / 10);
      DigitsRoundTrip(n / 10);
    }
  }

  lemma {:induction false} LeadingZero(s: string)
    requires AllDigits(s)
    ensures AllDigits("0" + s) && DigitsValue("0" + s) == DigitsValue(s)
  {
    if s != [] {
      assert ("0" + s)[..|"0" + s| - 1] == "0" + s[..|s| - 1];
      LeadingZero(s[..|s| - 1]);
    }
  }

  /** Decimal rendering of any integer, with a leading '-' when negative. */
  function IntToString(i: int): (s: string)
    ensures |s| > 0
  {
    if i < 0 then "-" + NatToString(-i) else NatToString(i)
  }

  /** Python's `int()` on text: an optional sign followed by at least one ASCII digit. */
  function ParseInt(s: string): (r: Option<int>)
    ensures r.Some? ==> s != []
  {
    if |s| > 0 && (s[0] == '+' || s[0] == '-') then
      if |s| > 1 && AllDigits(s[1..]) then
        Some(if s[0] == '-' then -(DigitsValue(s[1..]) as int) else DigitsValue(s[1..]))
      else None
    else if s != [] && AllDigits(s) then Some(DigitsValue(s))
    else None
  }

  lemma ParseIntToString(i: int)
    ensures ParseInt(IntToString(i)) == Some(i)
  {
    if i < 0 {
      ParseNegative(-i);
    } else {
      ParseDigits(NatToString(i));
      DigitsRoundTrip(i);
    }
  }

  /** A minus sign before the digits of a positive number parses to its negation. */
  lemma ParseNegative(n: nat)
    requires n > 0
    ensures ParseInt("-" + NatToString(n)) == Some(-(n as int))
  {
    var digits := NatToString(n);
    var s := "-" + digits;
    assert s[0] == '-' && s[1..] == digits;
    DigitsRoundTrip(n);
  }

  /** A non-empty run of digits parses to the number it spells. */
  lemma ParseDigits(s: string)
    requires s != [] && AllDigits(s)
    ensures ParseInt(s) == Some(DigitsValue(s))
  {
    assert s[0] != '+' && s[0] != '-' by { assert IsDigit(s[0]); }
  }

  /** Rounding toward zero, as Python's `int()` on a float and JavaScript's `Math.trunc` do. */
  function Truncate(x: real): (n: int)
    ensures 0.0 <= x ==> n as real <= x < n as real + 1.0
    ensures x < 0.0 ==> n as real - 1.0 < x <= n as real
  {
    if x >= 0.0 then x.Floor else -((-x).Floor)
  }

  /** JavaScript's `padStart(width, fill)` and the zero padding of `strftime`'s `%H`/`%M`. */
  function PadStart(s: string, width: nat, fill: char): (r: string)
    ensures |r| == if |s| >= width then |s| else width
    ensures r[|r| - |s|..] == s
    ensures forall i :: 0 <= i < |r| - |s| ==> r[i] == fill
    decreases width - |s|
  {
    if |s| >= width then s else PadStart([fill] + s, width, fill)
  }

  lemma {:induction false} ZeroPadValue(s: string, width: nat)
    requires AllDigits(s)
    ensures AllDigits(PadStart(s, width, '0'))
    ensures DigitsValue(PadStart(s, width, '0')) == DigitsValue(s)
    decreases width - |s|
  {
    if |s| < width {
      LeadingZero(s);
      ZeroPadValue("0" + s, width);
    }
  }

  /** Python's `str.split(sep)`: the pieces between successive occurrences of `sep`. */
  function Split(s: string, sep: char): (parts: seq<string>)
    ensures |parts| >= 1
    decreases |s|
  {
    if s == [] then [""]
    else
      var rest := Split(s[1..], sep);
      if s[0] == sep then [""] + rest else [[s[0]] + rest[0]] + rest[1..]
  }

  lemma {:induction false} SplitNoSeparator(s: string, sep: char)
    requires sep !in s
    ensures Split(s, sep) == [s]
  {
    if s != [] {
      SplitNoSeparator(s[1..], sep);
      assert [s[0]] + s[1..] == s;
    }
  }

  lemma {:induction false} SplitAtFirst(a: string, sep: char, b: string)
    requires sep !in a
    ensures Split(a + [sep] + b, sep) == [a] + Split(b, sep)
  {
    if a == [] {
      assert a + [sep] + b == [sep] + b;
      assert ([sep] + b)[1..] == b;
    } else {
      assert (a + [sep] + b)[1..] == a[1..] + [sep] + b;
      SplitAtFirst(a[1..], sep, b);
      assert [a[0]] + a[1..] == a;
    }
  }

  /** Two separator-free pieces joined by the separator split back into those two pieces. */
  lemma SplitTwo(a: string, sep: char, b: string)
    requires sep !in a && sep !in b
    ensures Split(a + [sep] + b, sep) == [a, b]
  {
    SplitAtFirst(a, sep, b);
    SplitNoSeparator(b, sep);
  }

  /** A run of digits holds no separator other than a digit. */
  lemma DigitsFree(s: string, c: char)
    requires AllDigits(s) && !IsDigit(c)
    ensures c !in s
  {
  }

  /** Python's `sub in s`. */
  predicate Contains(s: string, sub: string) {
    exists i :: 0 <= i <= |s| && OccursAt(s, sub, i)
  }

  predicate OccursAt(s: string, sub: string, i: nat) {
    i + |sub| <= |s| && s[i..i + |sub|] == sub
  }

  /** A substring stays a substring when text is added on either side. */
  lemma ContainsExtended(s: string, sub: string, before: string, after: string)
    requires Contains(s, sub)
    ensures Contains(before + s + after, sub)
  {
    var i :| 0 <= i <= |s| && OccursAt(s, sub, i);
    var t := before + s + after;
    assert t[|before| + i..|before| + i + |sub|] == s[i..i + |sub|];
    assert OccursAt(t, sub, |before| + i);
  }

  function LowerChar(c: char): char {
    if 'A' <= c <= 'Z' then (c as int + 32) as char else c
  }

  /** `str.lower()` restricted to ASCII letters. */
  function Lower(s: string): (r: string)
    ensures |r| == |s|
    ensures forall i :: 0 <= i < |s| ==> r[i] == LowerChar(s[i])
  {
    seq(|s|, i requires 0 <= i < |s| => LowerChar(s[i]))
  }

  function Codes(s: string): (r: seq<int>)
    ensures |r| == |s|
  {
    seq(|s|, i requires 0 <= i < |s| => s[i] as int)
  }

  lemma CodesAppend(a: string, b: string)
    ensures Codes(a + b) == Codes(a) + Codes(b)
  {
  }

  /** The codes of `a`, a separator and `b`. */
  lemma CodesAround(a: string, sep: char, b: string)
    ensures Codes(a + [sep] + b) == Codes(a) + ([sep as int] + Codes(b))
  {
    CodesAppend(a, [sep] + b);
    CodesAppend([sep], b);
    assert a + [sep] + b == a + ([sep] + b);
  }

  /** Code-point order on strings: Python's `<` on `str` and SQLite's BINARY collation. */
  predicate StrLess(a: string, b: string) {
    Lex.Less(Codes(a), Codes(b))
  }
}

=== FILE: wrappers.dfy ===
/**
 * Optional values, standing for Python's `None` and for lookups that may find
 * nothing, and results that carry either a value or the reason for a refusal.
 */
module Wrappers {

  datatype Option<+T> = None | Some(value: T) {

    /** The wrapped value, or `default` when there is none. */
    function GetOr(default: T): T {
      match this
      case Some(v) => v
      case None => default
    }
  }

  datatype Result<+T, +E> = Ok(value: T) | Err(error: E)
}
